=== FILE: README.md ===
# Alliance hub ledger, in Dafny

A model of the alliance hub contract of cw-alliance-hub (a CosmWasm contract). The hub
keeps a staking ledger of whitelisted assets and delegates its alliance token to
validators. It harvests the validators' rewards in two phases and distributes them by a
reward-per-unit accumulator. The modelled parts are:

- the ledger: stake, unstake, whitelist, remove;
- reward settlement: `_claim_reward`, `claim_rewards`;
- the harvest: `update_rewards`, `update_reward_callback`;
- delegation bookkeeping;
- the `reply` routing;
- the read-only queries;
- the one-shot storage migration.

The model is functional. The contract's storage is an immutable `State.State` record of
maps. Every entry point is a pure function from a state and a message to
`Result<Step>`, where a `Step` is the new state plus the outbound commands. An `Err` is
the host's all-or-nothing rollback: `Contract.Apply` commits nothing for it. This also
covers arithmetic panics (`Overflow(op)`, `DivideByZero`) and missing storage entries
(`NotFound`).

Numbers are modelled as follows:

- `Uint128` is a `nat` bounded by 2^128 − 1.
- cosmwasm's `Decimal` is a `Uint128` count of atomics scaled by 10^18, with every
  multiply and divide floored.
- `Decimal.FromInteger` fails with `DecimalRangeExceeded` above MAX / 10^18, exactly as
  `Decimal::from_atomics(v, 0)` does.

The reward computations make three `from_atomics(_, 0)` conversions (see "## Findings"):
the staked balance in a claim, the harvest and the asset's total in the callback. They take
a `State.Arithmetic` mode, and so do the dispatcher and everything built on it:

- `AsWritten` is contract.rs as it stands.
- `Corrected` never turns an integer into a Decimal. A claim multiplies the rate
  difference by the balance, and the callback computes each increment
  harvested × weight / (Σweights × total) in one wide division.

Every invariant and monotonicity lemma about `Contract.Execute`, `Apply` and `Run` is
proved for both modes.

From instantiation, the code as written never accrues a reward. No entry point stores the
reward distribution, and `RebalanceEmissions` is a no-op (contract.rs:107). So the callback
never succeeds: the contract's own call fails at the latest at the distribution load
(contract.rs:485), and any other sender gets Unauthorized. No asset rate is ever written,
and every claim fails with NotFound. `Contract.ReachableStatesAccrueNothing` proves this. The invariant lemmas are
therefore stated for any state that satisfies `State.Invariant`. This covers states whose
distribution was stored some other way, for instance by a later contract version.

Modules:

- `Errors`, `Uint`, `Decimal`: the error kinds, and the checked integer and fixed-point
  arithmetic the contract relies on.
- `Asset`: `AssetInfo`, its storage-key encoding (proved injective, with a decode round
  trip), and the ascending storage order that `range(.., Ascending)` yields.
- `State`: storage items, messages and outbound commands. It also holds the two ledger
  invariants:
  - `Conserved`: Σ user balances = total, per asset.
  - `CheckpointsBounded`: no user checkpoint is above its asset's rate.
- `Ledger`, `Delegation`, `Harvest`: the execute handlers.
- `Contract`: instantiate, the dispatcher, reply, and the invariants over any sequence of
  calls.
- `Query`: the queries.
- `Migration`: `migrate_state`.
- `Scenario`: a worked harvest with two stakers.

The code has no share accounting, no take-rate fee, and no settlement of pending rewards
before a stake or an unstake (it leaves TODOs there), and the model adds none of them. A stake overwrites the user's checkpoint, and `Ledger.StakeForfeitsPending`
states the consequence. The whitelist is a map from asset to chain id, as the storage
declaration has it; `whitelist_assets` stores a flag, and the model takes the chain id as
input. Membership is the only thing the ledger checks.

## Model

| member | source | states |
|---|---|---|
| Ledger.SaveAll | contracts/alliance-hub/src/contract.rs:123-126 | after saving a batch the whitelist holds the old assets plus every named one; a named asset carries its last entry's chain; other assets keep theirs |
| Ledger.WhitelistAssets | contracts/alliance-hub/src/contract.rs:113-136 | Unauthorized exactly when the sender is not governance; otherwise only the whitelist changes, gaining every named asset, and no command is emitted |
| Ledger.RemoveAll | contracts/alliance-hub/src/contract.rs:142-154 | removal deletes exactly the named assets and leaves every remaining entry as it was |
| Ledger.RemoveAssets | contracts/alliance-hub/src/contract.rs:138-158 | Unauthorized exactly when the sender is not governance; otherwise only whitelist entries are deleted, so balances, totals and rates are untouched |
| Ledger.RemoveUndoesWhitelist | contracts/alliance-hub/src/contract.rs:113-158 | removing the assets a whitelisting named restores the earlier whitelist less the removed assets |
| Ledger.Stake | contracts/alliance-hub/src/contract.rs:160-211 | OnlySingleAssetAllowed, AmountCannotBeZero and AssetNotWhitelisted in that order, an overflow otherwise; success adds exactly the amount to the user's balance and the asset total and sets the checkpoint to the asset rate (zero if none), with nothing else changed |
| Ledger.Unstake | contracts/alliance-hub/src/contract.rs:213-264 | AmountCannotBeZero for zero; InsufficientBalance without a record, or when the balance or the total is below the amount; success debits exactly the amount from both and emits one transfer of it, without consulting the whitelist |
| Ledger.StakeThenUnstake | contracts/alliance-hub/src/contract.rs:160-264 | unstaking what was just staked succeeds, returns the coin and restores every balance and total |
| Ledger.UnstakeIgnoresWhitelist | contracts/alliance-hub/src/contract.rs:213-264 | the outcome of an unstake does not depend on the whitelist at all |
| Ledger.StakePreservesInvariant | contracts/alliance-hub/src/contract.rs:178-200 | a stake keeps Σ user balances = total for every asset and every checkpoint at or below its rate |
| Ledger.UnstakePreservesInvariant | contracts/alliance-hub/src/contract.rs:227-252 | an unstake keeps Σ user balances = total for every asset and the checkpoint bound |
| Ledger.StakeForfeitsPending | contracts/alliance-hub/src/contract.rs:176-200 | right after a stake nothing is claimable: rewards pending before it are lost |
| Ledger.ClaimRewardAsWritten | contracts/alliance-hub/src/contract.rs:292-314 | the settlement as written: NotFound when a load fails, an underflow when the checkpoint exceeds the rate, otherwise DecimalRangeExceeded exactly when balance × 10^18 > MAX; success exactly when, in addition, the reward fits, paying floor((rate − checkpoint) × balance) and moving the checkpoint only for a non-zero reward |
| Ledger.ClaimReward | contracts/alliance-hub/src/contract.rs:292-314 | corrected settlement: NotFound without a checkpoint, a rate or a balance; an underflow when the checkpoint exceeds the rate; otherwise pays floor((rate − checkpoint) × balance), advancing only that checkpoint and only for a non-zero amount |
| Ledger.ClaimRewards | contracts/alliance-hub/src/contract.rs:266-290 | in either arithmetic, succeeds exactly when that settlement does and otherwise fails with its error; emits one transfer in the reward denom for a non-zero amount and nothing for zero; both arithmetics commit the same state where they succeed |
| Ledger.ClaimTwiceYieldsZero | contracts/alliance-hub/src/contract.rs:303-313 | a second claim with no rate change pays 0 and commits nothing |
| Ledger.ClaimNeverUnderflows | contracts/alliance-hub/src/contract.rs:302 | while checkpoints are bounded by rates, the rate subtraction of a claim cannot underflow, as written or corrected |
| Ledger.ClaimAsWrittenAgrees | contracts/alliance-hub/src/contract.rs:302-303 | wherever the code as written succeeds, the corrected settlement gives the same result |
| Ledger.ClaimAsWrittenRejectsLargeBalance | contracts/alliance-hub/src/contract.rs:302 | a balance of 10^21 atomics makes the settlement as written fail with DecimalRangeExceeded; the corrected one pays 10^18 |
| Ledger.ClaimRewardsPreservesInvariant | contracts/alliance-hub/src/contract.rs:266-314 | a claim keeps both ledger invariants, in either arithmetic |
| Delegation.DelegateLoop | contracts/alliance-hub/src/contract.rs:330-346 | one delegate command per entry, in order, and every entry's validator added to the set |
| Delegation.UndelegateLoop | contracts/alliance-hub/src/contract.rs:367-380 | one undelegate command per entry, in order |
| Delegation.RedelegateLoop | contracts/alliance-hub/src/contract.rs:402-420 | one redelegate command per entry, in order, and only each destination validator added |
| Delegation.AllianceDelegate | contracts/alliance-hub/src/contract.rs:316-351 | Unauthorized unless the controller calls; EmptyDelegation for an empty batch; otherwise one command per entry and the validator set grows by exactly the batch's validators |
| Delegation.AllianceUndelegate | contracts/alliance-hub/src/contract.rs:353-385 | the same guards; one command per entry; the state, validator set included, is unchanged |
| Delegation.AllianceRedelegate | contracts/alliance-hub/src/contract.rs:387-425 | the same guards; one command per entry; the set grows by exactly the destinations |
| Harvest.SentReward | contracts/alliance-hub/src/contract.rs:430-436 | the amount of the first attached coin in the reward denom, zero when none is attached |
| Harvest.ClaimMsgs | contracts/alliance-hub/src/contract.rs:446-460 | one reward-claim command per listed validator, in order |
| Harvest.ClaimMsgsCover | contracts/alliance-hub/src/contract.rs:445-460 | every validator of the set gets a reward-claim command |
| Harvest.ClaimMsgsDistinct | contracts/alliance-hub/src/contract.rs:445-460 | claims for distinct validators are distinct commands, so no validator is claimed twice |
| Harvest.HarvestShape | contracts/alliance-hub/src/contract.rs:445-468 | for a listing of the validator set, the batch is one claim per validator in the reward denom, none repeated, and the callback last |
| Harvest.HarvestMsgs | contracts/alliance-hub/src/contract.rs:445-468 | one claim per validator, none repeated, followed by the self-addressed callback as the last command |
| Harvest.UpdateRewards | contracts/alliance-hub/src/contract.rs:427-469 | fails with an underflow exactly when the sent reward exceeds the balance; otherwise stores snapshot = balance − sent, changes nothing else, and emits one claim per validator and then the callback |
| Harvest.WeightFold | contracts/alliance-hub/src/contract.rs:487-491 | the weight total is the sum of the weights, and the fold fails exactly when that sum leaves the Decimal range |
| Harvest.AssetShare | contracts/alliance-hub/src/contract.rs:494-496 | as written, an asset's cut is floor(harvested × weight × 10^18 / Σweights) atomics, and any harvest above MAX / 10^18 fails with DecimalRangeExceeded |
| Harvest.Increment | contracts/alliance-hub/src/contract.rs:503-504 | as written, the per-unit increment is floor(share / total) atomics, and it fails, with DecimalRangeExceeded, exactly when the total exceeds MAX / 10^18 |
| Harvest.RatePerUnit | contracts/alliance-hub/src/contract.rs:494-504 | corrected increment: DivideByZero exactly for a zero weight total; otherwise Ok exactly when Expected(harvested, w, Σw, total) fits, and then equal to it |
| Harvest.Raise | contracts/alliance-hub/src/contract.rs:505-511 | the rate grows by exactly the increment, fails exactly when the sum overflows, and no other asset's rate changes |
| Harvest.IncrementAgrees | contracts/alliance-hub/src/contract.rs:494-504 | wherever both conversions as written succeed, the corrected increment is the same Decimal |
| Harvest.RatePerUnitFits | contracts/alliance-hub/src/contract.rs:494-504 | with a weight at most Σweights, the corrected increment exists whenever harvested × 10^18 ≤ MAX × total, however large the harvest |
| Harvest.FanOutOne | contracts/alliance-hub/src/contract.rs:493-513 | one entry raises at most its own asset's rate, never lowers a rate, and leaves everything alone when the asset's total is zero |
| Harvest.FanOut | contracts/alliance-hub/src/contract.rs:493-514 | no rate decreases and only assets with a positive total are touched |
| Harvest.FanOutOneExact | contracts/alliance-hub/src/contract.rs:493-513 | in either arithmetic, a funded asset's rate rises by exactly floor(H × w × 10^18 / (W × T)) atomics; as written this is the nested floor(floor(H × w × 10^18 / W) / T), which is the same number |
| Harvest.FanOutExact | contracts/alliance-hub/src/contract.rs:493-514 | with distinct assets, every funded asset's rate rises by exactly that increment |
| Harvest.UpdateRewardCallbackWith | contracts/alliance-hub/src/contract.rs:471-517 | Unauthorized unless the contract calls itself; NotFound without a snapshot; success needs snapshot ≤ balance and a distribution, removes the snapshot, never lowers a rate, changes only funded assets' rates and nothing else |
| Harvest.RequestSetsOnlySnapshot | contracts/alliance-hub/src/contract.rs:427-441 | a successful request leaves the config, distribution, totals and rates untouched and stores snapshot = balance − sent |
| Harvest.FanOutSums | contracts/alliance-hub/src/contract.rs:493-514 | for any distribution, repeats included, a successful fan-out raises each funded asset's rate by the sum of Expected over the entries naming it |
| Harvest.CallbackSumsRates | contracts/alliance-hub/src/contract.rs:480-514 | for any distribution, repeats included, a successful callback raises each funded asset's rate by the sum over its entries of Expected(balance − snapshot, w, Σw, total), in either arithmetic |
| Harvest.CallbackRaisesRates | contracts/alliance-hub/src/contract.rs:480-514 | with each asset listed once, a successful callback raises every funded asset's rate by exactly floor((balance − snapshot) × w × 10^18 / (Σw × total)) atomics, in either arithmetic |
| Harvest.UpdateRewardCallbackAsWritten | contracts/alliance-hub/src/contract.rs:471-517 | the callback as written clears the snapshot and never lowers a rate |
| Harvest.UpdateRewardCallback | contracts/alliance-hub/src/contract.rs:471-517 | the corrected callback clears the snapshot and never lowers a rate |
| Harvest.FanOutAsWrittenAgrees | contracts/alliance-hub/src/contract.rs:493-513 | wherever the fan-out as written succeeds, the corrected one gives the same rates |
| Harvest.CallbackAsWrittenAgrees | contracts/alliance-hub/src/contract.rs:471-517 | wherever the callback as written succeeds, the corrected one gives the same result |
| Harvest.CallbackAsWrittenRejectsLargeHarvest | contracts/alliance-hub/src/contract.rs:494 | as written, the contract's own callback with a non-empty distribution whose weights fit fails with DecimalRangeExceeded whenever balance − snapshot exceeds MAX / 10^18 |
| Harvest.CallbackAsWrittenRejectsHarvest | contracts/alliance-hub/src/contract.rs:494 | a harvest of 10^21 atomics makes the callback as written fail with DecimalRangeExceeded; the corrected one raises the rate by 10^33 atomics |
| Harvest.CallbackAsWrittenRejectsLargeTotal | contracts/alliance-hub/src/contract.rs:504 | a total of 10^21 atomics makes the callback as written fail with DecimalRangeExceeded; the corrected one raises the rate by 1 atomic |
| Contract.Instantiate | contracts/alliance-hub/src/contract.rs:42-86 | the new contract has no balances, totals, rates, checkpoints, unclaimed rewards, distribution, whitelist, validators or snapshot, no alliance denom and a zero supply, the given roles, satisfies both ledger invariants, and asks for the alliance denom to be created |
| Contract.HandleReply | contracts/alliance-hub/src/contract.rs:520-554 | any reply id other than 1 (the claim-reward id 2 included) is InvalidReplyId; id 1 with no parsable denom is a ParseError; id 1 with a denom always succeeds, records the denom and a fixed supply of 10^12, mints that supply to the contract, and changes nothing else |
| Contract.Execute | contracts/alliance-hub/src/contract.rs:89-111 | the dispatcher, in either arithmetic: no message lowers a rate, drops a validator, writes unclaimed rewards or the distribution, or changes the config; without a stored distribution no rate moves; RebalanceEmissions succeeds and does nothing |
| Contract.Dispatch | contracts/alliance-hub/src/contract.rs:89-111 | an execute call or a reply moves the ledger only in those allowed directions |
| Contract.Apply | contracts/alliance-hub/src/contract.rs:89-111 | the host's all-or-nothing commit: a failed event leaves the state exactly as it was, and any event moves it only in the allowed directions |
| Contract.Run | contracts/alliance-hub/src/contract.rs:89-111 | over any sequence of events, rates never fall, validators are never dropped, unclaimed rewards and the distribution never change, and without a distribution no rate moves |
| Contract.ExecutePreservesInvariant | contracts/alliance-hub/src/contract.rs:89-111 | every successful execute message keeps both ledger invariants, as written and corrected |
| Contract.ReplyPreservesInvariant | contracts/alliance-hub/src/contract.rs:520-554 | the reply keeps both ledger invariants and changes no rate, validator or reward item |
| Contract.ApplyPreserves | contracts/alliance-hub/src/contract.rs:89-111 | one committed-or-rolled-back event keeps both ledger invariants, as written and corrected |
| Contract.RunPreserves | contracts/alliance-hub/src/contract.rs:89-111 | any sequence of events keeps both ledger invariants, as written and corrected |
| Contract.ReachableStatesAccrueNothing | contracts/alliance-hub/src/contract.rs:42-111 | every state reachable from instantiation satisfies both invariants, has no distribution and no asset rate; no callback there succeeds, and every claim there, as written or corrected, fails with NotFound |
| Contract.SecondRequestOverwritesSnapshot | contracts/alliance-hub/src/contract.rs:440 | a second harvest request before the callback replaces the snapshot with the newer balance and changes nothing else |
| Contract.CallbackAfterTwoRequests | contracts/alliance-hub/src/contract.rs:427-517 | with each asset listed once, after two overlapping requests the callback distributes only what arrived after the second: rewards received in between are never distributed |
| Contract.CallbackFromSnapshot | contracts/alliance-hub/src/contract.rs:483-514 | with each asset listed once, a callback on a state that differs only in its snapshot distributes the balance less that snapshot over the original distribution, totals and rates |
| Query.StakedBalance | contracts/alliance-hub/src/query.rs:62-71 | succeeds exactly when the position has a stored balance (no default) and reports that balance |
| Query.PendingRewards | contracts/alliance-hub/src/query.rs:73-90 | NotFound without a checkpoint, a rate or a balance; otherwise reports unclaimed (default 0) + floor((rate − checkpoint) × balance), failing exactly on underflow or overflow |
| Query.PendingEach | contracts/alliance-hub/src/query.rs:118-135 | one entry per asset, each equal to the single-asset query; a failure reports the first failing asset's error |
| Query.PendingOfSortedOk | contracts/alliance-hub/src/query.rs:118-135 | the walk over the sorted checkpoint keys succeeds exactly when the query succeeds for every key |
| Query.FollowsSorted | contracts/alliance-hub/src/query.rs:118-135 | entries that follow the sorted key order name each key exactly once, ascending |
| Query.PendingOfSorted | contracts/alliance-hub/src/query.rs:118-135 | a successful walk over the sorted keys has one entry per key, ascending, each equal to that key's single query |
| Query.AllPendingRewards | contracts/alliance-hub/src/query.rs:115-138 | one entry per asset the user has a checkpoint for, in ascending key order, each equal to the single-asset query; fails exactly when one of them fails |
| Query.Listing | contracts/alliance-hub/src/query.rs:97-110 | one response entry per asset, in the given order |
| Query.ListingOfSorted | contracts/alliance-hub/src/query.rs:94-110 | listing a sorted key set names each key exactly once, ascending |
| Query.AllStakedBalances | contracts/alliance-hub/src/query.rs:92-113 | exactly one entry per whitelisted asset, ascending; each agrees with the single-asset query and is 0 where that query finds nothing |
| Query.TotalStakedBalances | contracts/alliance-hub/src/query.rs:140-149 | exactly the contents of the total-balance map, one entry per key, ascending |
| Query.TotalsAreSums | contracts/alliance-hub/src/query.rs:140-149 | under the ledger invariant every reported total is the sum of the users' balances |
| Query.Group | contracts/alliance-hub/src/query.rs:47-51 | pushing assets onto per-chain lists gives a list for a chain exactly when some input asset is whitelisted for it, holding that chain's assets in input order |
| Query.OnChainMembers | contracts/alliance-hub/src/query.rs:47-51 | a chain's list holds exactly the input assets whitelisted for that chain |
| Query.OnChainInUse | contracts/alliance-hub/src/query.rs:44-51 | over a listing of every whitelisted asset, a chain's list is non-empty exactly when the chain is in use |
| Query.GroupKeysInUse | contracts/alliance-hub/src/query.rs:44-51 | grouping a listing of every whitelisted asset gives lists for exactly the chains in use |
| Query.OnChainAscending | contracts/alliance-hub/src/query.rs:44-51 | grouping an ascending input keeps each chain's list ascending |
| Query.GroupSortedKeys | contracts/alliance-hub/src/query.rs:43-54 | the grouped response has a list for exactly the chains in use |
| Query.GroupSortedLists | contracts/alliance-hub/src/query.rs:43-54 | for a chain in use, its list over the ascending whitelist is non-empty and holds exactly that chain's assets, ascending |
| Query.WhitelistedAssets | contracts/alliance-hub/src/query.rs:43-54 | every whitelisted asset appears exactly once, under its own chain id, each list ascending |
| Query.PendingMatchesClaim | contracts/alliance-hub/src/query.rs:83-86 | with no unclaimed carry the query succeeds exactly when the corrected claim does and reports what it pays; wherever the claim as written succeeds, the query succeeds with the same amount |
| Query.PendingAfterClaim | contracts/alliance-hub/src/query.rs:73-90 | right after a claim the query reports only the unclaimed carry |
| Migration.Upgrade | contracts/alliance-hub/src/migrations.rs:24-37 | fields present in both layouts are copied; the take-rate taker becomes empty and the default yearly take rate 5% |
| Migration.MoveTotals | contracts/alliance-hub/src/migrations.rs:41-55 | every old total T becomes the pair (T, T), with other stored pairs kept |
| Migration.MoveBalances | contracts/alliance-hub/src/migrations.rs:57-71 | every old balance b becomes a share entry of exactly b, with other stored shares kept |
| Migration.Migrate | contracts/alliance-hub/src/migrations.rs:10-74 | NotFound without a config and a decode error on a config already migrated; otherwise the new config, the moved totals and shares, and the old maps emptied |
| Migration.MigratePreservesConservation | contracts/alliance-hub/src/migrations.rs:53-71 | if Σ user balances = total before, Σ user shares = total shares after, and each user's shares equal their old balance |
| Migration.MigrateOnce | contracts/alliance-hub/src/migrations.rs:23-24 | a second migration finds the new config and fails |
| Scenario.TwoStakersShareHarvest | contracts/alliance-hub/src/contract.rs:471-517 | stakes of 1,000,000 and 500,000 and a harvest of 100,000 raise the rate by floor(10^23 / 1,500,000) atomics; the stakers are owed 66,666 and 33,333 |

## Left out

- Instantiation validates addresses and records the cw2 contract version. The model takes the roles as given and keeps only the denom-creation command, without its metadata.
- `reply` parses the created denom out of the reply data. The parsed denom is a parameter, with None for data that does not parse. `reply.result.unwrap()` cannot fail for a success-only submessage, so it is not modelled.
- Response attributes and the JSON encoding of responses are not modelled.
- Stargate protobuf encoding, `transfer_msg` and the token-factory messages are abstract `Command` values.
- `addr_validate` in the delegation handlers and the queries is not modelled: addresses are taken as valid.
- The bank-balance query of the harvest is the `Env.rewardBalance` parameter.
- The host's submessage scheduling is not modelled: the two harvest phases are two separate calls sharing the snapshot. The source iterates the validator HashSet in unspecified order; the model uses ascending order, and no stated property depends on the order.
- `get_config`, `get_validators` and `get_rewards_distribution` are plain storage loads and are not modelled.
- The oracle contract is not part of this model.
- Storage errors other than a missing entry are not modelled.
- `last_reward_update_timestamp` is never updated by the code and is carried unchanged.
- UNCLAIMED_REWARDS and ASSET_REWARD_DISTRIBUTION are never written by the execute handlers. They are state fields that only the queries and the callback read.
- Migration.Store: `migrate_state` is not wired to any entry point in contract.rs, and the storage declarations do not include SHARES or TOTAL_BALANCES_SHARES. The model gives the migration its own record of the five storage items it touches. `unwrap()` on corrupt storage is not modelled.
- Migration.MigratePreservesConservation: assumes the share layout is empty before the migration. With shares already stored, the code overwrites them key by key and the sums need not match.
- Harvest.FanOutExact: assumes no asset is listed twice in the distribution. With a repeated asset the increments add up per entry, which `Harvest.FanOutSums` states instead.
- Harvest.CallbackRaisesRates: assumes each asset is listed once; `Harvest.CallbackSumsRates` covers repeats.
- Contract.CallbackFromSnapshot: assumes each asset is listed once, to state the rise through `Harvest.RaisedBy`.
- Contract.CallbackAfterTwoRequests: assumes each asset is listed once, like `Contract.CallbackFromSnapshot`, which it uses.
- Query.WhitelistedAssets: the response is a Dafny map. The source's HashMap has no order of its own.
- Share-based minting, a take-rate fee, and settling pending rewards before a stake or an unstake do not exist in the code, so the model has none of them.

## Findings

| source | as written | input that shows it | evidently intended | confidence | as-written member | corrected member |
|---|---|---|---|---|---|---|
| contracts/alliance-hub/src/contract.rs:302 | the staked balance is turned into a Decimal with `from_atomics(balance, 0)` before multiplying, so any balance above MAX / 10^18 (about 3.4 × 10^20 atomics, i.e. 340 whole tokens of an 18-decimal asset) makes every claim fail | balance 10^21, rate 10^15 atomics, checkpoint 0: the claim fails with DecimalRangeExceeded instead of paying 10^18 | floor((rate − checkpoint) × balance) computed as Decimal × Uint128, which is how the pending-reward query computes it (query.rs:83) and fails only when the reward itself overflows | not executed | Ledger.ClaimRewardAsWritten, Ledger.ClaimAsWrittenRejectsLargeBalance | Ledger.ClaimReward |
| contracts/alliance-hub/src/contract.rs:494 | the harvest is turned into a Decimal with `from_atomics(rewards_collected, 0)` before it is weighted, so once more than MAX / 10^18 atomics (about 340 whole tokens of an 18-decimal reward denom) arrive between a request and its callback, the callback fails and rolls the whole harvest back; the pending rewards keep growing, so every later harvest fails too | harvest 10^21, one full weight, total 10^6: the callback fails with DecimalRangeExceeded instead of raising the rate by 10^33 atomics | harvested × weight / (Σweights × total) in one wide division, which fails only when the increment itself is out of range | not executed | Harvest.AssetShare, Harvest.CallbackAsWrittenRejectsLargeHarvest, Harvest.CallbackAsWrittenRejectsHarvest | Harvest.RatePerUnit, Harvest.RatePerUnitFits, Harvest.UpdateRewardCallback |
| contracts/alliance-hub/src/contract.rs:503-504 | the asset's total balance is turned into a Decimal with `from_atomics(total, 0)` before dividing, so an asset with more than MAX / 10^18 staked atomics makes every harvest callback fail and stalls rewards for all assets | total 10^21, harvest 1000, a single full weight: the callback fails with DecimalRangeExceeded instead of raising the rate by 1 atomic | harvested × weight / (Σweights × total) in one wide division, with no integer turned into a Decimal | not executed | Harvest.Increment, Harvest.CallbackAsWrittenRejectsLargeTotal | Harvest.RatePerUnit, Harvest.IncrementAgrees, Harvest.UpdateRewardCallback |

=== FILE: asset.dfy ===
/** cw_asset's AssetInfo, its storage key (AssetInfoKey), and the ascending key order in
    which cw-storage-plus ranges a map. The contract keys every asset map by the encoded
    key; since the encoding is injective, the model keys the maps by AssetInfo itself and
    uses the encoding only for ordering. */
module Asset {
  import opened Errors

  datatype AssetInfo = Native(denom: string) | Cw20(addr: string)

  const NativePrefix: string := "native:"
  const Cw20Prefix: string := "cw20:"

  /** The storage key: the asset's kind as a prefix followed by its denom or address. */
  function Encode(a: AssetInfo): string {
    match a
    case Native(d) => NativePrefix + d
    case Cw20(c) => Cw20Prefix + c
  }

  /** A left inverse of Encode, None for a key with neither prefix. The contract never
      decodes a key; this only serves the proof that distinct assets get distinct keys. */
  function Decode(k: string): Option<AssetInfo> {
    if |NativePrefix| <= |k| && k[..|NativePrefix|] == NativePrefix then
      Some(Native(k[|NativePrefix|..]))
    else if |Cw20Prefix| <= |k| && k[..|Cw20Prefix|] == Cw20Prefix then
      Some(Cw20(k[|Cw20Prefix|..]))
    else None
  }

  lemma DecodeEncode(a: AssetInfo)
    ensures Decode(Encode(a)) == Some(a)
  {
    var k := Encode(a);
    match a
    case Native(d) =>
      assert k[..|NativePrefix|] == NativePrefix;
      assert k[|NativePrefix|..] == d;
    case Cw20(c) =>
      assert k[0] == 'c' != NativePrefix[0];
      assert k[..|Cw20Prefix|] == Cw20Prefix;
      assert k[|Cw20Prefix|..] == c;
  }

  /** Distinct assets have distinct storage keys. */
  lemma EncodeInjective(a: AssetInfo, b: AssetInfo)
    requires Encode(a) == Encode(b)
    ensures a == b
  {
    DecodeEncode(a);
    DecodeEncode(b);
  }

  // ---------------------------------------------------------------------------
  // Ascending storage order: lexicographic on the key's characters. The stored keys carry
  // a length prefix ("cw20:" is shorter than "native:"), then the denom; UTF-8 preserves
  // code-point order, so this order agrees with the byte order of the stored keys.
  // ---------------------------------------------------------------------------

  predicate Below(a: string, b: string)
    decreases |a|
  {
    if |a| == 0 then |b| > 0
    else |b| > 0 && (a[0] < b[0] || (a[0] == b[0] && Below(a[1..], b[1..])))
  }

  lemma {:induction false} BelowIrreflexive(a: string)
    ensures !Below(a, a)
    decreases |a|
  {
    if |a| > 0 {
      BelowIrreflexive(a[1..]);
    }
  }

  lemma {:induction false} BelowTransitive(a: string, b: string, c: string)
    requires Below(a, b) && Below(b, c)
    ensures Below(a, c)
    decreases |a|
  {
    if |a| > 0 && a[0] == b[0] == c[0] {
      BelowTransitive(a[1..], b[1..], c[1..]);
    }
  }

  lemma {:induction false} BelowTotal(a: string, b: string)
    requires a != b
    ensures Below(a, b) || Below(b, a)
    decreases |a|
  {
    if |a| > 0 && |b| > 0 && a[0] == b[0] {
      assert a == [a[0]] + a[1..] && b == [b[0]] + b[1..];
      BelowTotal(a[1..], b[1..]);
    }
  }

  lemma BelowAsymmetric(a: string, b: string)
    requires Below(a, b)
    ensures !Below(b, a)
  {
    if Below(b, a) {
      BelowTransitive(a, b, a);
      BelowIrreflexive(a);
    }
  }

  ghost predicate Injective<T(!new)>(key: T -> string) {
    forall x, y :: key(x) == key(y) ==> x == y
  }

  /** m is the least element of s under the order of its keys. */
  predicate IsLeast<T(==)>(m: T, s: set<T>, key: T -> string) {
    m in s && forall o :: o in s && o != m ==> Below(key(m), key(o))
  }

  lemma {:induction false} LeastExists<T(!new)>(s: set<T>, key: T -> string)
    requires s != {} && Injective(key)
    ensures exists m :: IsLeast(m, s, key)
    decreases s
  {
    var x :| x in s;
    if s == {x} {
      assert IsLeast(x, s, key);
    } else {
      LeastExists(s - {x}, key);
      var m :| IsLeast(m, s - {x}, key);
      if Below(key(x), key(m)) {
        forall o | o in s && o != x
          ensures Below(key(x), key(o))
        {
          if o != m {
            BelowTransitive(key(x), key(m), key(o));
          }
        }
        assert IsLeast(x, s, key);
      } else {
        assert key(x) != key(m);
        BelowTotal(key(x), key(m));
        assert IsLeast(m, s, key);
      }
    }
  }

  lemma LeastUnique<T>(s: set<T>, key: T -> string)
    ensures forall m, m' :: IsLeast(m, s, key) && IsLeast(m', s, key) ==> m == m'
  {
    forall m, m' | IsLeast(m, s, key) && IsLeast(m', s, key)
      ensures m == m'
    {
      if m != m' {
        BelowAsymmetric(key(m), key(m'));
      }
    }
  }

  ghost predicate Ascending<T>(r: seq<T>, key: T -> string) {
    forall i, j :: 0 <= i < j < |r| ==> Below(key(r[i]), key(r[j]))
  }

  /** The elements of s in ascending key order: the order in which cw-storage-plus's
      `range(.., Order::Ascending)` yields them. */
  function SortedBy<T(==,!new)>(s: set<T>, key: T -> string): (r: seq<T>)
    requires Injective(key)
    ensures |r| == |s|
    ensures forall i :: 0 <= i < |r| ==> r[i] in s
    ensures forall x :: x in s ==> x in r
    ensures Ascending(r, key)
    decreases s
  {
    if s == {} then []
    else
      LeastExists(s, key);
      LeastUnique(s, key);
      var m :| IsLeast(m, s, key);
      var rest := SortedBy(s - {m}, key);
      assert Ascending([m] + rest, key) by {
        forall i, j | 0 <= i < j < |[m] + rest|
          ensures Below(key(([m] + rest)[i]), key(([m] + rest)[j]))
        {
          if i == 0 {
            assert ([m] + rest)[j] == rest[j - 1] && rest[j - 1] in s - {m};
          }
        }
      }
      [m] + rest
  }

  /** A strictly ascending sequence holds no element twice. */
  lemma AscendingDistinct<T>(r: seq<T>, key: T -> string, i: int, j: int)
    requires Ascending(r, key)
    requires 0 <= i < |r| && 0 <= j < |r| && i != j
    ensures r[i] != r[j]
  {
    if i < j {
      if r[i] == r[j] { BelowIrreflexive(key(r[i])); }
    } else {
      if r[i] == r[j] { BelowIrreflexive(key(r[j])); }
    }
  }

  lemma EncodeIsInjective()
    ensures Injective(Encode)
  {
    forall x, y | Encode(x) == Encode(y)
      ensures x == y
    {
      EncodeInjective(x, y);
    }
  }

  /** Assets in ascending storage-key order. */
  function SortedAssets(s: set<AssetInfo>): (r: seq<AssetInfo>)
    ensures |r| == |s|
    ensures forall i :: 0 <= i < |r| ==> r[i] in s
    ensures forall x :: x in s ==> x in r
    ensures Ascending(r, Encode)
  {
    EncodeIsInjective();
    SortedBy(s, Encode)
  }

  function Identity(v: string): string { v }

  /** Strings (addresses) in ascending order. */
  function SortedStrings(s: set<string>): (r: seq<string>)
    ensures |r| == |s|
    ensures forall i :: 0 <= i < |r| ==> r[i] in s
    ensures forall x :: x in s ==> x in r
    ensures Ascending(r, Identity)
  {
    SortedBy(s, Identity)
  }
}

=== FILE: contract.dfy ===
/** Entry points of contracts/alliance-hub/src/contract.rs: instantiate, the execute
    dispatcher, reply, and the ledger invariants over any sequence of calls. A call that
    fails commits nothing: the host rolls the whole transaction back. */
module Contract {
  import opened Errors
  import opened Uint
  import opened Asset
  import opened State
  import L = Ledger
  import D = Delegation
  import H = Harvest

  const CreateReplyId: nat := 1
  const ClaimRewardReplyId: nat := 2
  const AllianceTokenSupply: Uint128 := 1_000_000_000_000
  const AllianceSubdenom: string := "ualliance"

  datatype InstantiateMsg = InstantiateMsg(governance: Addr, controller: Addr, rewardDenom: string)

  datatype ExecuteMsg =
    | WhitelistAssets(entries: seq<L.WhitelistEntry>)
    | RemoveAssets(assets: seq<AssetInfo>)
    | Stake
    | Unstake(asset: L.AssetAmount)
    | ClaimRewards(claimed: AssetInfo)
    | AllianceDelegate(delegations: seq<D.AllianceDelegation>)
    | AllianceUndelegate(undelegations: seq<D.AllianceDelegation>)
    | AllianceRedelegate(redelegations: seq<D.AllianceRedelegation>)
    | UpdateRewards
    | RebalanceEmissions
    | UpdateRewardsCallback

  /** Something the host delivers to the contract: an execute call, or the reply to a
      submessage, carrying the denom parsed from the reply data (None when unparsable). */
  datatype Event =
    | Call(env: Env, info: MessageInfo, msg: ExecuteMsg)
    | Reply(replyEnv: Env, id: nat, createdDenom: Option<string>)

  /** The freshly instantiated contract: empty ledger, empty validator set, no token yet;
      it asks the token factory to create the alliance denom. */
  function Instantiate(msg: InstantiateMsg): (r: Step)
    ensures Invariant(r.state)
    ensures r.state.config.governance == msg.governance && r.state.config.controller == msg.controller
    ensures r.state.config.rewardDenom == msg.rewardDenom
    ensures r.state.validators == {} && r.state.whitelist == map[] && r.state.snapshot.None?
    ensures && r.state.balances == map[] && r.state.totals == map[] && r.state.assetRates == map[]
            && r.state.userRates == map[] && r.state.unclaimed == map[] && r.state.distribution.None?
    ensures r.state.config.allianceTokenDenom == "" && r.state.config.allianceTokenSupply == 0
    ensures r.msgs == [CreateDenom(AllianceSubdenom)]
  {
    var st := State(Config(msg.governance, msg.controller, "", 0, 0, msg.rewardDenom),
                     map[], map[], map[], {}, None, map[], map[], map[], None);
    assert forall a :: PositionsOf(st.balances, a) == {};
    Step(st, [CreateDenom(AllianceSubdenom)])
  }

  /** `execute`: routes each message to its handler, with the reward arithmetic chosen by
      `mode` (`AsWritten` is contract.rs as it stands). No handler lowers a rate, drops a
      validator, writes unclaimed rewards or the distribution, or changes the config, and
      without a stored distribution no rate moves at all. */
  function Execute(st: State, env: Env, info: MessageInfo, msg: ExecuteMsg, mode: Arithmetic): (r: Result<Step>)
    ensures r.Ok? ==> Monotone(st, r.value.state) && r.value.state.config == st.config
    ensures r.Ok? && st.distribution.None? ==> r.value.state.assetRates == st.assetRates
    ensures msg.RebalanceEmissions? ==> r == Ok(Step(st, []))
  {
    match msg
    case WhitelistAssets(entries) => L.WhitelistAssets(st, info, entries)
    case RemoveAssets(assets) => L.RemoveAssets(st, info, assets)
    case Stake => L.Stake(st, info)
    case Unstake(asset) => L.Unstake(st, info, asset)
    case ClaimRewards(asset) => L.ClaimRewards(st, info, asset, mode)
    case AllianceDelegate(batch) => D.AllianceDelegate(st, info, batch)
    case AllianceUndelegate(batch) => D.AllianceUndelegate(st, info, batch)
    case AllianceRedelegate(batch) => D.AllianceRedelegate(st, info, batch)
    case UpdateRewards => H.UpdateRewards(st, env, info)
    case RebalanceEmissions => Ok(Step(st, []))
    case UpdateRewardsCallback => H.UpdateRewardCallbackWith(st, env, info, mode)
  }

  /** Routes a submessage reply by id: only the token-creation reply is handled; it records
      the new denom and its fixed supply and mints that supply to the contract. */
  function HandleReply(st: State, env: Env, id: nat, createdDenom: Option<string>): (r: Result<Step>)
    ensures id != CreateReplyId ==> r == Err(InvalidReplyId(id))
    ensures id == CreateReplyId && createdDenom.None? ==> r == Err(ParseError)
    ensures id == CreateReplyId && createdDenom.Some? ==> r.Ok?
    ensures r.Ok? ==>
              && createdDenom.Some?
              && r.value.state.config.allianceTokenDenom == createdDenom.value
              && r.value.state.config.allianceTokenSupply == AllianceTokenSupply
              && r.value.state.(config := st.config) == st
              && r.value.state.config.(allianceTokenDenom := st.config.allianceTokenDenom,
                                       allianceTokenSupply := st.config.allianceTokenSupply) == st.config
              && r.value.msgs == [MintTokens(createdDenom.value, AllianceTokenSupply, env.contract)]
  {
    if id != CreateReplyId then Err(InvalidReplyId(id))
    else if createdDenom.None? then Err(ParseError)
    else
      var denom := createdDenom.value;
      Ok(Step(st.(config := st.config.(allianceTokenDenom := denom, allianceTokenSupply := AllianceTokenSupply)),
              [MintTokens(denom, AllianceTokenSupply, env.contract)]))
  }

  /** Delivers one event; like every call, a reply moves the ledger only the allowed way. */
  function Dispatch(st: State, e: Event, mode: Arithmetic): (r: Result<Step>)
    ensures r.Ok? ==> Monotone(st, r.value.state)
    ensures r.Ok? && st.distribution.None? ==> r.value.state.assetRates == st.assetRates
  {
    match e
    case Call(env, info, msg) => Execute(st, env, info, msg, mode)
    case Reply(env, id, denom) => HandleReply(st, env, id, denom)
  }

  /** The committed state after an event: the host rolls a failed event back entirely. */
  function Apply(st: State, e: Event, mode: Arithmetic): (r: State)
    ensures Dispatch(st, e, mode).Err? ==> r == st
    ensures Monotone(st, r)
    ensures st.distribution.None? ==> r.assetRates == st.assetRates
  {
    match Dispatch(st, e, mode)
    case Ok(step) => step.state
    case Err(_) => st
  }

  /** The state after a sequence of events: rates only rise, validators are only added, and
      the untouched items stay as they were, however the events fail or succeed. */
  function Run(st: State, events: seq<Event>, mode: Arithmetic): (r: State)
    ensures Monotone(st, r)
    ensures st.distribution.None? ==> r.assetRates == st.assetRates
    decreases |events|
  {
    if events == [] then st
    else
      var next := Apply(st, events[0], mode);
      var r := Run(next, events[1..], mode);
      RatesGrowTransitive(st.assetRates, next.assetRates, r.assetRates);
      r
  }

  // ---------------------------------------------------------------------------
  // One call.
  // ---------------------------------------------------------------------------

  /** Every successful call keeps Σ balances == total per asset and every checkpoint at or
      below its asset's rate, in either arithmetic. */
  lemma ExecutePreservesInvariant(st: State, env: Env, info: MessageInfo, msg: ExecuteMsg, mode: Arithmetic)
    requires Invariant(st) && Execute(st, env, info, msg, mode).Ok?
    ensures Invariant(Execute(st, env, info, msg, mode).value.state)
  {
    var st' := Execute(st, env, info, msg, mode).value.state;
    match msg
    case Stake => L.StakePreservesInvariant(st, info);
    case Unstake(asset) => L.UnstakePreservesInvariant(st, info, asset);
    case ClaimRewards(asset) => L.ClaimRewardsPreservesInvariant(st, info, asset, mode);
    case UpdateRewardsCallback =>
      assert st'.balances == st.balances && st'.totals == st.totals && st'.userRates == st.userRates;
      forall p | p in st'.userRates
        ensures st'.userRates[p].atomics <= RateOf(st'.assetRates, p.1).atomics
      {
        RatesGrowRateOf(st.assetRates, st'.assetRates, p.1);
      }
    case _ =>
      assert st'.balances == st.balances && st'.totals == st.totals;
      assert st'.userRates == st.userRates && st'.assetRates == st.assetRates;
  }

  /** The facts every successful call obeys, whatever it is. */
  ghost predicate Monotone(st: State, st': State) {
    && RatesGrow(st.assetRates, st'.assetRates)
    && st.validators <= st'.validators
    && st'.unclaimed == st.unclaimed
    && st'.distribution == st.distribution
  }

  lemma ReplyPreservesInvariant(st: State, env: Env, id: nat, createdDenom: Option<string>)
    requires Invariant(st) && HandleReply(st, env, id, createdDenom).Ok?
    ensures Invariant(HandleReply(st, env, id, createdDenom).value.state)
    ensures Monotone(st, HandleReply(st, env, id, createdDenom).value.state)
  {
    var st' := HandleReply(st, env, id, createdDenom).value.state;
    assert st'.balances == st.balances && st'.totals == st.totals;
    assert st'.userRates == st.userRates && st'.assetRates == st.assetRates;
  }

  lemma ApplyPreserves(st: State, e: Event, mode: Arithmetic)
    requires Invariant(st)
    ensures Invariant(Apply(st, e, mode))
  {
    match e
    case Call(env, info, msg) =>
      if Execute(st, env, info, msg, mode).Ok? {
        ExecutePreservesInvariant(st, env, info, msg, mode);
      }
    case Reply(env, id, denom) =>
      if HandleReply(st, env, id, denom).Ok? {
        ReplyPreservesInvariant(st, env, id, denom);
      }
  }

  // ---------------------------------------------------------------------------
  // Any sequence of calls.
  // ---------------------------------------------------------------------------

  /** From any state satisfying the invariants, every sequence of events keeps them. */
  lemma {:induction false} RunPreserves(st: State, events: seq<Event>, mode: Arithmetic)
    requires Invariant(st)
    ensures Invariant(Run(st, events, mode))
    decreases |events|
  {
    if events != [] {
      ApplyPreserves(st, events[0], mode);
      RunPreserves(Apply(st, events[0], mode), events[1..], mode);
    }
  }

  /** No entry point stores a reward distribution, so from instantiation on the callback
      always fails, no asset rate is ever written, and every claim fails with NotFound: the
      contract as written never accrues a reward. */
  lemma ReachableStatesAccrueNothing(msg: InstantiateMsg, events: seq<Event>, mode: Arithmetic,
                                     user: Addr, asset: AssetInfo, env: Env, info: MessageInfo)
    ensures var st := Run(Instantiate(msg).state, events, mode);
            && Invariant(st)
            && st.distribution.None?
            && st.assetRates == map[]
            && H.UpdateRewardCallbackWith(st, env, info, mode).Err?
            && L.ClaimRewardAsWritten(st, user, asset) == Err(NotFound)
            && L.ClaimReward(st, user, asset) == Err(NotFound)
  {
    RunPreserves(Instantiate(msg).state, events, mode);
  }

  /** A second harvest request before the first callback silently replaces the snapshot:
      the source has no guard against this overlap. */
  lemma SecondRequestOverwritesSnapshot(st: State, env1: Env, info1: MessageInfo, env2: Env, info2: MessageInfo)
    requires H.SentReward(info1.funds, st.config.rewardDenom) <= env1.rewardBalance
    requires H.SentReward(info2.funds, st.config.rewardDenom) <= env2.rewardBalance
    ensures var st2 := H.UpdateRewards(H.UpdateRewards(st, env1, info1).value.state, env2, info2).value.state;
            && st2.snapshot.Some?
            && st2.snapshot.value + H.SentReward(info2.funds, st.config.rewardDenom) == env2.rewardBalance
            && st2.(snapshot := st.snapshot) == st
  {
    var st1 := H.UpdateRewards(st, env1, info1).value.state;
    assert st1.config == st.config;
    assert H.UpdateRewards(st1, env2, info2).Ok?;
  }

  /** After two overlapping requests the callback distributes only what arrived after the
      second one: rewards that reached the contract between the two requests count as part
      of the second snapshot and are never distributed. */
  lemma CallbackAfterTwoRequests(st: State, env1: Env, info1: MessageInfo, env2: Env, info2: MessageInfo,
                                 env3: Env, info3: MessageInfo, mode: Arithmetic)
    requires H.UpdateRewards(st, env1, info1).Ok?
    requires H.UpdateRewards(H.UpdateRewards(st, env1, info1).value.state, env2, info2).Ok?
    requires st.distribution.Some? && H.DistinctAssets(st.distribution.value)
    ensures var st2 := H.UpdateRewards(H.UpdateRewards(st, env1, info1).value.state, env2, info2).value.state;
            var callback := H.UpdateRewardCallbackWith(st2, env3, info3, mode);
            var dist, sent := st.distribution.value, H.SentReward(info2.funds, st.config.rewardDenom);
            callback.Ok? ==>
              && env2.rewardBalance - sent <= env3.rewardBalance
              && H.RaisedBy(dist, st.totals, st.assetRates, callback.value.state.assetRates,
                            env3.rewardBalance - (env2.rewardBalance - sent))
  {
    var st1 := H.UpdateRewards(st, env1, info1).value.state;
    var st2 := H.UpdateRewards(st1, env2, info2).value.state;
    var kept := env2.rewardBalance - H.SentReward(info2.funds, st.config.rewardDenom);
    assert && st1.config == st.config && st1.distribution == st.distribution
           && st1.totals == st.totals && st1.assetRates == st.assetRates by {
      H.RequestSetsOnlySnapshot(st, env1, info1);
    }
    assert && st2.distribution == st1.distribution && st2.totals == st1.totals
           && st2.assetRates == st1.assetRates && st2.snapshot.Some? && st2.snapshot.value == kept by {
      H.RequestSetsOnlySnapshot(st1, env2, info2);
    }
    CallbackFromSnapshot(st, st2, kept, env3, info3, mode);
  }

  /** A callback run on `st` with only the snapshot replaced by `kept` distributes
      rewardBalance − kept over `st`'s distribution, totals and rates. */
  lemma CallbackFromSnapshot(st: State, st2: State, kept: Uint128, env: Env, info: MessageInfo, mode: Arithmetic)
    requires st2.distribution == st.distribution && st2.totals == st.totals && st2.assetRates == st.assetRates
    requires st2.snapshot == Some(kept)
    requires st.distribution.Some? && H.DistinctAssets(st.distribution.value)
    ensures var callback, dist := H.UpdateRewardCallbackWith(st2, env, info, mode), st.distribution.value;
            callback.Ok? ==>
              && kept <= env.rewardBalance
              && H.RaisedBy(dist, st.totals, st.assetRates, callback.value.state.assetRates, env.rewardBalance - kept)
  {
    if H.UpdateRewardCallbackWith(st2, env, info, mode).Ok? {
      H.CallbackRaisesRates(st2, env, info, mode);
    }
  }
}

=== FILE: decimal.dfy ===
/** cosmwasm's `Decimal`: an 18-digit fixed-point number stored as its Uint128 count of
    10^-18 units ("atomics"). Every operation floors, and the panicking ones return
    Err with the panic's kind. */
module Decimal {
  import opened Errors
  import opened Uint

  const FRACTIONAL: nat := 1_000_000_000_000_000_000

  datatype Decimal = Decimal(atomics: Uint128)

  const Zero: Decimal := Decimal(0)

  /** `Decimal::percent(p)` for a u64 percentage p. */
  function Percent(p: nat): (r: Decimal)
    requires p < 0x1_0000_0000_0000_0000
    ensures r.atomics * 100 == p * FRACTIONAL
  {
    Decimal(p * 10_000_000_000_000_000)
  }

  /** `Decimal::from_atomics(v, 0)`: the integer v as a decimal; fails with
      DecimalRangeExceeded once v * 10^18 no longer fits in a Uint128. */
  function FromInteger(v: Uint128): (r: Result<Decimal>)
    ensures r.Ok? <==> v * FRACTIONAL <= MAX
    ensures r.Ok? ==> r.value.atomics == v * FRACTIONAL
    ensures r.Err? ==> r.error == DecimalRangeExceeded
  {
    if v * FRACTIONAL <= MAX then Ok(Decimal(v * FRACTIONAL)) else Err(DecimalRangeExceeded)
  }

  function Add(a: Decimal, b: Decimal): (r: Result<Decimal>)
    ensures r.Ok? <==> a.atomics + b.atomics <= MAX
    ensures r.Ok? ==> r.value.atomics == a.atomics + b.atomics
  {
    var s :- CheckedAdd(a.atomics, b.atomics);
    Ok(Decimal(s))
  }

  function Sub(a: Decimal, b: Decimal): (r: Result<Decimal>)
    ensures r.Ok? <==> b.atomics <= a.atomics
    ensures r.Ok? ==> r.value.atomics + b.atomics == a.atomics
    ensures r.Err? ==> r.error == Overflow(Subtraction)
  {
    var d :- CheckedSub(a.atomics, b.atomics);
    Ok(Decimal(d))
  }

  /** Decimal * Decimal: floor(a * b / 10^18), panicking when that exceeds MAX. */
  function Mul(a: Decimal, b: Decimal): (r: Result<Decimal>)
    ensures r.Ok? <==> a.atomics * b.atomics / FRACTIONAL <= MAX
    ensures r.Ok? ==> r.value.atomics == a.atomics * b.atomics / FRACTIONAL
    ensures r.Err? ==> r.error == Overflow(Multiplication)
  {
    var p := a.atomics * b.atomics / FRACTIONAL;
    if p <= MAX then Ok(Decimal(p)) else Err(Overflow(Multiplication))
  }

  /** Decimal / Decimal (`checked_from_ratio`): floor(a * 10^18 / b); panics on a zero
      divisor or a quotient above MAX. */
  function Div(a: Decimal, b: Decimal): (r: Result<Decimal>)
    ensures b.atomics == 0 ==> r == Err(DivideByZero)
    ensures b.atomics > 0 ==> (r.Ok? <==> a.atomics * FRACTIONAL / b.atomics <= MAX)
    ensures r.Ok? ==> b.atomics > 0 && r.value.atomics == a.atomics * FRACTIONAL / b.atomics
    ensures r.Err? && b.atomics > 0 ==> r.error == Overflow(Division)
  {
    if b.atomics == 0 then Err(DivideByZero)
    else
      var q := a.atomics * FRACTIONAL / b.atomics;
      if q <= MAX then Ok(Decimal(q)) else Err(Overflow(Division))
  }

  /** Decimal * Uint128 -> Uint128 (`u.multiply_ratio(a, 10^18)`): floor(a * u) in whole
      units, panicking only when that product itself exceeds MAX. */
  function MulInteger(a: Decimal, u: Uint128): (r: Result<Uint128>)
    ensures r.Ok? <==> u * a.atomics / FRACTIONAL <= MAX
    ensures r.Ok? ==> r.value == u * a.atomics / FRACTIONAL
    ensures r.Err? ==> r.error == Overflow(Multiplication)
  {
    if u == 0 || a.atomics == 0 then Ok(0)
    else MultiplyRatio(u, a.atomics, FRACTIONAL as Uint128)
  }

  /** `to_uint_floor`: the whole part. */
  function Floor(a: Decimal): (r: Uint128)
    ensures r * FRACTIONAL <= a.atomics < (r + 1) * FRACTIONAL
  {
    DivBounds(a.atomics, FRACTIONAL);
    DivLeNumerator(a.atomics, FRACTIONAL);
    a.atomics / FRACTIONAL
  }

  /** Multiplying by an integer turned into a Decimal is exact on atomics:
      Mul(a, FromInteger(u)) carries a * u atomics. */
  lemma MulByInteger(a: Decimal, u: Uint128)
    requires FromInteger(u).Ok?
    ensures a.atomics * FromInteger(u).value.atomics / FRACTIONAL == a.atomics * u
  {
    assert a.atomics * (u * FRACTIONAL) == (a.atomics * u) * FRACTIONAL;
    MulDivCancel(a.atomics * u, FRACTIONAL);
  }
}

=== FILE: delegation.dfy ===
/** Controller-driven delegation bookkeeping of contracts/alliance-hub/src/contract.rs:
    alliance_delegate, alliance_undelegate and alliance_redelegate. Each entry of a batch
    becomes one outbound staking message for the alliance token; the validator set that
    harvest claims from only ever grows. */
module Delegation {
  import opened Errors
  import opened Uint
  import opened State

  datatype AllianceDelegation = AllianceDelegation(validator: Addr, amount: Uint128)

  datatype AllianceRedelegation = AllianceRedelegation(src: Addr, dst: Addr, amount: Uint128)

  function Targets(batch: seq<AllianceDelegation>): set<Addr> {
    set i | 0 <= i < |batch| :: batch[i].validator
  }

  function Destinations(batch: seq<AllianceRedelegation>): set<Addr> {
    set i | 0 <= i < |batch| :: batch[i].dst
  }

  /** The delegate loop: one MsgDelegate per entry, each validator inserted into the set. */
  function DelegateLoop(denom: string, vals: set<Addr>, batch: seq<AllianceDelegation>): (r: (set<Addr>, seq<Command>))
    ensures r.0 == vals + Targets(batch)
    ensures |r.1| == |batch|
    ensures forall i :: 0 <= i < |batch| ==> r.1[i] == Delegate(denom, batch[i].validator, batch[i].amount)
    decreases |batch|
  {
    if batch == [] then (vals, [])
    else
      var d := batch[0];
      var rest := DelegateLoop(denom, vals + {d.validator}, batch[1..]);
      assert Targets(batch) == {d.validator} + Targets(batch[1..]) by {
        forall v | v in Targets(batch)
          ensures v in {d.validator} + Targets(batch[1..])
        {
          var i :| 0 <= i < |batch| && batch[i].validator == v;
          if i > 0 { assert batch[1..][i - 1].validator == v; }
        }
        forall v | v in Targets(batch[1..])
          ensures v in Targets(batch)
        {
          var i :| 0 <= i < |batch[1..]| && batch[1..][i].validator == v;
          assert batch[i + 1].validator == v;
        }
      }
      (rest.0, [Delegate(denom, d.validator, d.amount)] + rest.1)
  }

  /** The undelegate loop: one MsgUndelegate per entry; the set is not touched. */
  function UndelegateLoop(denom: string, batch: seq<AllianceDelegation>): (r: seq<Command>)
    ensures |r| == |batch|
    ensures forall i :: 0 <= i < |batch| ==> r[i] == Undelegate(denom, batch[i].validator, batch[i].amount)
    decreases |batch|
  {
    if batch == [] then []
    else [Undelegate(denom, batch[0].validator, batch[0].amount)] + UndelegateLoop(denom, batch[1..])
  }

  /** The redelegate loop: one MsgRedelegate per entry; only the destination is inserted. */
  function RedelegateLoop(denom: string, vals: set<Addr>, batch: seq<AllianceRedelegation>): (r: (set<Addr>, seq<Command>))
    ensures r.0 == vals + Destinations(batch)
    ensures |r.1| == |batch|
    ensures forall i :: 0 <= i < |batch| ==> r.1[i] == Redelegate(denom, batch[i].src, batch[i].dst, batch[i].amount)
    decreases |batch|
  {
    if batch == [] then (vals, [])
    else
      var d := batch[0];
      var rest := RedelegateLoop(denom, vals + {d.dst}, batch[1..]);
      assert Destinations(batch) == {d.dst} + Destinations(batch[1..]) by {
        forall v | v in Destinations(batch)
          ensures v in {d.dst} + Destinations(batch[1..])
        {
          var i :| 0 <= i < |batch| && batch[i].dst == v;
          if i > 0 { assert batch[1..][i - 1].dst == v; }
        }
        forall v | v in Destinations(batch[1..])
          ensures v in Destinations(batch)
        {
          var i :| 0 <= i < |batch[1..]| && batch[1..][i].dst == v;
          assert batch[i + 1].dst == v;
        }
      }
      (rest.0, [Redelegate(denom, d.src, d.dst, d.amount)] + rest.1)
  }

  function AllianceDelegate(st: State, info: MessageInfo, batch: seq<AllianceDelegation>): (r: Result<Step>)
    ensures info.sender != st.config.controller ==> r == Err(Unauthorized)
    ensures info.sender == st.config.controller && batch == [] ==> r == Err(EmptyDelegation)
    ensures r.Ok? <==> info.sender == st.config.controller && batch != []
    ensures r.Ok? ==>
              && r.value.state.validators == st.validators + Targets(batch)
              && r.value.state.(validators := st.validators) == st
              && |r.value.msgs| == |batch|
              && forall i :: 0 <= i < |batch| ==>
                   r.value.msgs[i] == Delegate(st.config.allianceTokenDenom, batch[i].validator, batch[i].amount)
  {
    if info.sender != st.config.controller then Err(Unauthorized)
    else if batch == [] then Err(EmptyDelegation)
    else
      var (vals, msgs) := DelegateLoop(st.config.allianceTokenDenom, st.validators, batch);
      Ok(Step(st.(validators := vals), msgs))
  }

  /** Undelegation keeps every validator in the set, even one left with no stake. */
  function AllianceUndelegate(st: State, info: MessageInfo, batch: seq<AllianceDelegation>): (r: Result<Step>)
    ensures info.sender != st.config.controller ==> r == Err(Unauthorized)
    ensures info.sender == st.config.controller && batch == [] ==> r == Err(EmptyDelegation)
    ensures r.Ok? <==> info.sender == st.config.controller && batch != []
    ensures r.Ok? ==>
              && r.value.state == st
              && |r.value.msgs| == |batch|
              && forall i :: 0 <= i < |batch| ==>
                   r.value.msgs[i] == Undelegate(st.config.allianceTokenDenom, batch[i].validator, batch[i].amount)
  {
    if info.sender != st.config.controller then Err(Unauthorized)
    else if batch == [] then Err(EmptyDelegation)
    else Ok(Step(st, UndelegateLoop(st.config.allianceTokenDenom, batch)))
  }

  function AllianceRedelegate(st: State, info: MessageInfo, batch: seq<AllianceRedelegation>): (r: Result<Step>)
    ensures info.sender != st.config.controller ==> r == Err(Unauthorized)
    ensures info.sender == st.config.controller && batch == [] ==> r == Err(EmptyDelegation)
    ensures r.Ok? <==> info.sender == st.config.controller && batch != []
    ensures r.Ok? ==>
              && r.value.state.validators == st.validators + Destinations(batch)
              && r.value.state.(validators := st.validators) == st
              && |r.value.msgs| == |batch|
              && forall i :: 0 <= i < |batch| ==>
                   r.value.msgs[i] == Redelegate(st.config.allianceTokenDenom, batch[i].src, batch[i].dst, batch[i].amount)
  {
    if info.sender != st.config.controller then Err(Unauthorized)
    else if batch == [] then Err(EmptyDelegation)
    else
      var (vals, msgs) := RedelegateLoop(st.config.allianceTokenDenom, st.validators, batch);
      Ok(Step(st.(validators := vals), msgs))
  }
}

=== FILE: errors.dfy ===
/** Error kinds of the hub contract (contracts/alliance-hub/src/error.rs), together with
    the arithmetic panics and storage failures that abort a transaction exactly like a
    returned error does, and the Result type every operation returns. */
module Errors {

  /** The checked arithmetic operation whose overflow aborted the transaction. */
  datatype ArithOp = Addition | Subtraction | Multiplication | Division

  datatype ContractError =
    | Unauthorized
    | OnlySingleAssetAllowed
    | AssetNotWhitelisted
    | InsufficientBalance
    | AmountCannotBeZero
    | InvalidReplyId(id: nat)
    | EmptyDelegation
    | DecimalRangeExceeded
      /** StdError::NotFound: a storage load of an absent entry. */
    | NotFound
      /** StdError::GenericErr("parse error") of the token-creation reply. */
    | ParseError
      /** A panic of cosmwasm's checked Uint128/Decimal arithmetic. */
    | Overflow(op: ArithOp)
    | DivideByZero

  datatype Option<T> = None | Some(value: T)

  /** Failure-compatible result: `:-` propagates the first error. */
  datatype Result<T> = Ok(value: T) | Err(error: ContractError) {

    predicate IsFailure() {
      Err?
    }

    function PropagateFailure<U>(): Result<U>
      requires Err?
    {
      Err(error)
    }

    function Extract(): T
      requires Ok?
    {
      value
    }
  }
}

=== FILE: harvest.dfy ===
/** The two-phase reward harvest of contracts/alliance-hub/src/contract.rs: update_rewards
    snapshots the reward balance and asks every validator for its rewards, then the
    self-addressed update_reward_callback measures what arrived and raises each weighted
    asset's reward-per-unit rate. */
module Harvest {
  import opened Errors
  import opened Uint
  import opened Decimal
  import opened Asset
  import opened State

  // ---------------------------------------------------------------------------
  // Request.
  // ---------------------------------------------------------------------------

  /** The amount of the first attached coin in `denom`, or zero when none is attached. */
  function SentReward(funds: seq<Coin>, denom: string): (r: Uint128)
    ensures (forall i :: 0 <= i < |funds| ==> funds[i].denom != denom) ==> r == 0
    ensures forall i :: (0 <= i < |funds| && funds[i].denom == denom
                         && forall j :: 0 <= j < i ==> funds[j].denom != denom) ==> r == funds[i].amount
    decreases |funds|
  {
    if funds == [] then 0
    else if funds[0].denom == denom then funds[0].amount
    else
      var r := SentReward(funds[1..], denom);
      assert forall i :: 0 < i < |funds| ==> funds[i] == funds[1..][i - 1];
      r
  }

  function ClaimMsgs(denom: string, vals: seq<Addr>): (r: seq<Command>)
    ensures |r| == |vals|
    ensures forall i :: 0 <= i < |vals| ==> r[i] == ClaimDelegationRewards(denom, vals[i])
    decreases |vals|
  {
    if vals == [] then [] else [ClaimDelegationRewards(denom, vals[0])] + ClaimMsgs(denom, vals[1..])
  }

  /** Stores snapshot = balance - reward funds sent with this call, then dispatches one
      reward claim per validator (in ascending order; the source iterates a HashSet in
      unspecified order) followed by the callback to the contract itself. */
  function UpdateRewards(st: State, env: Env, info: MessageInfo): (r: Result<Step>)
    ensures r.Ok? <==> SentReward(info.funds, st.config.rewardDenom) <= env.rewardBalance
    ensures r.Err? ==> r.error == Overflow(Subtraction)
    ensures r.Ok? ==>
              var n, msgs := |st.validators|, r.value.msgs;
              && r.value.state.snapshot.Some?
              && r.value.state.snapshot.value + SentReward(info.funds, st.config.rewardDenom) == env.rewardBalance
              && r.value.state.(snapshot := st.snapshot) == st
              && |msgs| == n + 1
              && msgs[n] == UpdateRewardsCallback(env.contract)
              && (forall i :: 0 <= i < n ==>
                    msgs[i].ClaimDelegationRewards? && msgs[i].validator in st.validators
                    && msgs[i].denom == st.config.allianceTokenDenom)
              && (forall v :: v in st.validators ==> ClaimDelegationRewards(st.config.allianceTokenDenom, v) in msgs)
              && (forall i, j :: 0 <= i < j < n ==> msgs[i] != msgs[j])
  {
    var sent := SentReward(info.funds, st.config.rewardDenom);
    var snapshot :- CheckedSub(env.rewardBalance, sent);
    var msgs := HarvestMsgs(st.config.allianceTokenDenom, st.validators, env.contract);
    Ok(Step(st.(snapshot := Some(snapshot)), msgs))
  }

  /** A request touches nothing but the snapshot, which it sets to the balance less what
      the caller sent along. */
  lemma RequestSetsOnlySnapshot(st: State, env: Env, info: MessageInfo)
    requires UpdateRewards(st, env, info).Ok?
    ensures var st' := UpdateRewards(st, env, info).value.state;
            && st'.config == st.config && st'.distribution == st.distribution
            && st'.totals == st.totals && st'.assetRates == st.assetRates
            && st'.snapshot.Some? && st'.snapshot.value + SentReward(info.funds, st.config.rewardDenom) == env.rewardBalance
  {
    var st' := UpdateRewards(st, env, info).value.state;
    assert st'.(snapshot := st.snapshot) == st;
  }

  /** Every member of a set listed in vals gets a claim. */
  lemma ClaimMsgsCover(denom: string, vs: set<Addr>, vals: seq<Addr>)
    requires forall x :: x in vs ==> x in vals
    ensures forall v :: v in vs ==> ClaimDelegationRewards(denom, v) in ClaimMsgs(denom, vals)
  {
    var claims := ClaimMsgs(denom, vals);
    forall v | v in vs
      ensures ClaimDelegationRewards(denom, v) in claims
    {
      var i :| 0 <= i < |vals| && vals[i] == v;
      assert claims[i] == ClaimDelegationRewards(denom, v);
    }
  }

  /** Claims for distinct validators are distinct. */
  lemma ClaimMsgsDistinct(denom: string, vals: seq<Addr>)
    requires Ascending(vals, Identity)
    ensures forall i, j :: 0 <= i < j < |vals| ==> ClaimMsgs(denom, vals)[i] != ClaimMsgs(denom, vals)[j]
  {
    forall i, j | 0 <= i < j < |vals|
      ensures ClaimMsgs(denom, vals)[i] != ClaimMsgs(denom, vals)[j]
    {
      AscendingDistinct(vals, Identity, i, j);
    }
  }

  /** The request's commands for validators listed once each in vals. */
  lemma HarvestShape(denom: string, vs: set<Addr>, vals: seq<Addr>, contract: Addr)
    requires |vals| == |vs|
    requires forall i :: 0 <= i < |vals| ==> vals[i] in vs
    requires forall x :: x in vs ==> x in vals
    requires Ascending(vals, Identity)
    ensures var msgs := ClaimMsgs(denom, vals) + [UpdateRewardsCallback(contract)];
            && |msgs| == |vs| + 1
            && msgs[|vs|] == UpdateRewardsCallback(contract)
            && (forall i :: 0 <= i < |vs| ==>
                  msgs[i].ClaimDelegationRewards? && msgs[i].validator in vs && msgs[i].denom == denom)
            && (forall i, j :: 0 <= i < j < |vs| ==> msgs[i] != msgs[j])
            && (forall v :: v in vs ==> ClaimDelegationRewards(denom, v) in msgs)
  {
    var claims := ClaimMsgs(denom, vals);
    var msgs := claims + [UpdateRewardsCallback(contract)];
    assert forall i :: 0 <= i < |vals| ==> msgs[i] == claims[i];
    ClaimMsgsDistinct(denom, vals);
    ClaimMsgsCover(denom, vs, vals);
    assert forall c :: c in claims ==> c in msgs;
  }

  /** One reward claim per validator, then the callback. */
  function HarvestMsgs(denom: string, vs: set<Addr>, contract: Addr): (msgs: seq<Command>)
    ensures |msgs| == |vs| + 1
    ensures msgs[|vs|] == UpdateRewardsCallback(contract)
    ensures forall i :: 0 <= i < |vs| ==>
              msgs[i].ClaimDelegationRewards? && msgs[i].validator in vs && msgs[i].denom == denom
    ensures forall i, j :: 0 <= i < j < |vs| ==> msgs[i] != msgs[j]
    ensures forall v :: v in vs ==> ClaimDelegationRewards(denom, v) in msgs
  {
    var vals := SortedStrings(vs);
    HarvestShape(denom, vs, vals, contract);
    ClaimMsgs(denom, vals) + [UpdateRewardsCallback(contract)]
  }

  // ---------------------------------------------------------------------------
  // Callback.
  // ---------------------------------------------------------------------------

  /** Σ of the distribution weights, in atomics. */
  function Weights(dist: seq<AssetDistribution>): nat {
    if dist == [] then 0 else dist[0].distribution.atomics + Weights(dist[1..])
  }

  /** The weight total folded with checked Decimal addition: it fails exactly when the
      sum exceeds the Decimal range. */
  function WeightFold(acc: Decimal, dist: seq<AssetDistribution>): (r: Result<Decimal>)
    ensures r.Ok? <==> acc.atomics + Weights(dist) <= MAX
    ensures r.Ok? ==> r.value.atomics == acc.atomics + Weights(dist)
    ensures r.Err? ==> r.error == Overflow(Addition)
    decreases |dist|
  {
    if dist == [] then Ok(acc)
    else
      match Add(acc, dist[0].distribution)
      case Ok(next) => WeightFold(next, dist[1..])
      case Err(e) => Err(Overflow(Addition))
  }

  /** The asset's cut of the harvest as contract.rs:494-496 computes it: the harvest turned
      into a Decimal with `from_atomics(_, 0)`, times the weight, over Σweights. A harvest
      above MAX / 10^18 already fails at the conversion. */
  function AssetShare(harvested: Uint128, weight: Decimal, weightTotal: Decimal): (r: Result<Decimal>)
    ensures harvested * FRACTIONAL > MAX ==> r == Err(DecimalRangeExceeded)
    ensures r.Ok? ==> weightTotal.atomics > 0
                      && r.value.atomics == harvested * weight.atomics * FRACTIONAL / weightTotal.atomics
  {
    var h :- FromInteger(harvested);
    var m :- Mul(h, weight);
    MulByInteger(weight, harvested);
    assert m.atomics == harvested * weight.atomics by {
      assert h.atomics * weight.atomics == weight.atomics * h.atomics;
    }
    Div(m, weightTotal)
  }

  /** The per-unit increment as contract.rs:503-504 computes it: the share over the total
      turned into a Decimal. Only that conversion can fail; the quotient never exceeds the
      share. */
  function Increment(share: Decimal, total: Uint128): (r: Result<Decimal>)
    requires total > 0
    ensures r.Ok? <==> total * FRACTIONAL <= MAX
    ensures r.Err? ==> r.error == DecimalRangeExceeded
    ensures r.Ok? ==> r.value.atomics == share.atomics / total
  {
    var t :- FromInteger(total);
    DivScale(share.atomics, total, FRACTIONAL);
    DivLeNumerator(share.atomics, total);
    Div(share, t)
  }

  /** The corrected per-unit increment: harvested × weight / (Σweights × total), floored once
      and computed with wide intermediates, so no integer is ever turned into a Decimal. It
      fails only on a zero weight total or an increment that is itself out of range. */
  function RatePerUnit(harvested: Uint128, weight: Decimal, weightTotal: Decimal, total: Uint128): (r: Result<Decimal>)
    requires total > 0
    ensures weightTotal.atomics == 0 <==> r == Err(DivideByZero)
    ensures weightTotal.atomics > 0 ==>
              (r.Ok? <==> Expected(harvested, weight.atomics, weightTotal.atomics, total) <= MAX)
    ensures r.Ok? ==> weightTotal.atomics > 0
                      && r.value.atomics == Expected(harvested, weight.atomics, weightTotal.atomics, total)
  {
    if weightTotal.atomics == 0 then Err(DivideByZero)
    else
      var q := harvested * weight.atomics * FRACTIONAL / (weightTotal.atomics * total);
      if q <= MAX then Ok(Decimal(q)) else Err(Overflow(Division))
  }

  /** The `ASSET_REWARD_RATE.update` of contract.rs:505-511: a positive increment is added to
      the asset's rate (zero when never stored); a zero increment stores nothing. */
  function Raise(rates: map<AssetInfo, Decimal>, a: AssetInfo, inc: Decimal): (r: Result<map<AssetInfo, Decimal>>)
    ensures r.Ok? <==> RateOf(rates, a).atomics + inc.atomics <= MAX
    ensures r.Ok? ==> RatesGrow(rates, r.value) && r.value - {a} == rates - {a}
    ensures r.Ok? ==> RateOf(r.value, a).atomics == RateOf(rates, a).atomics + inc.atomics
  {
    if inc.atomics > 0 then
      var rate :- Add(RateOf(rates, a), inc);
      Ok(rates[a := rate])
    else Ok(rates)
  }

  /** Assets of the distribution that currently have a positive total balance. */
  function Funded(dist: seq<AssetDistribution>, totals: map<AssetInfo, Uint128>): set<AssetInfo> {
    set i | 0 <= i < |dist| && TotalOf(totals, dist[i].asset) > 0 :: dist[i].asset
  }

  /** Processes one distribution entry: an asset with a zero total gets nothing (its cut
      is dropped); otherwise its increment is added to its rate. As written the share is
      computed, and can fail, before the zero-total check. */
  function FanOutOne(rates: map<AssetInfo, Decimal>, totals: map<AssetInfo, Uint128>, d: AssetDistribution,
                     harvested: Uint128, weightTotal: Decimal, mode: Arithmetic): (r: Result<map<AssetInfo, Decimal>>)
    ensures r.Ok? ==> RatesGrow(rates, r.value)
    ensures r.Ok? ==> r.value - {d.asset} == rates - {d.asset}
    ensures r.Ok? && TotalOf(totals, d.asset) == 0 ==> r.value == rates
  {
    var total := TotalOf(totals, d.asset);
    match mode
    case AsWritten =>
      var share :- AssetShare(harvested, d.distribution, weightTotal);
      if total == 0 then Ok(rates)
      else
        var inc :- Increment(share, total);
        Raise(rates, d.asset, inc)
    case Corrected =>
      if weightTotal.atomics == 0 then Err(DivideByZero)
      else if total == 0 then Ok(rates)
      else
        var inc :- RatePerUnit(harvested, d.distribution, weightTotal, total);
        Raise(rates, d.asset, inc)
  }

  function FanOut(rates: map<AssetInfo, Decimal>, totals: map<AssetInfo, Uint128>, dist: seq<AssetDistribution>,
                  harvested: Uint128, weightTotal: Decimal, mode: Arithmetic): (r: Result<map<AssetInfo, Decimal>>)
    ensures r.Ok? ==> RatesGrow(rates, r.value)
    ensures r.Ok? ==> r.value - Funded(dist, totals) == rates - Funded(dist, totals)
    decreases |dist|
  {
    if dist == [] then Ok(rates)
    else
      var next :- FanOutOne(rates, totals, dist[0], harvested, weightTotal, mode);
      var r := FanOut(next, totals, dist[1..], harvested, weightTotal, mode);
      assert Funded(dist[1..], totals) <= Funded(dist, totals) by {
        forall a | a in Funded(dist[1..], totals)
          ensures a in Funded(dist, totals)
        {
          var i :| 0 <= i < |dist[1..]| && TotalOf(totals, dist[1..][i].asset) > 0 && dist[1..][i].asset == a;
          assert dist[i + 1] == dist[1..][i];
        }
      }
      assert r.Ok? ==> r.value - Funded(dist, totals) == rates - Funded(dist, totals) by {
        if r.Ok? && TotalOf(totals, dist[0].asset) > 0 {
          assert dist[0].asset in Funded(dist, totals);
          MinusCompose(rates, next, r.value, {dist[0].asset}, Funded(dist[1..], totals), Funded(dist, totals));
        } else if r.Ok? {
          MinusCompose(rates, next, r.value, {}, Funded(dist[1..], totals), Funded(dist, totals));
        }
      }
      r
  }

  /** Two updates that each leave everything outside their key set alone leave everything
      outside the union of those sets alone. */
  lemma MinusCompose(m1: map<AssetInfo, Decimal>, m2: map<AssetInfo, Decimal>, m3: map<AssetInfo, Decimal>,
                     s1: set<AssetInfo>, s2: set<AssetInfo>, s: set<AssetInfo>)
    requires m2 - s1 == m1 - s1 && m3 - s2 == m2 - s2
    requires s1 <= s && s2 <= s
    ensures m3 - s == m1 - s
  {
    forall a | a !in s
      ensures (a in m3 <==> a in m1) && (a in m3 ==> m3[a] == m1[a])
    {
      assert a in m3 <==> a in m3 - s2;
      assert a in m2 <==> a in m2 - s2;
      assert a in m2 <==> a in m2 - s1;
      assert a in m1 <==> a in m1 - s1;
    }
  }

  /** update_reward_callback: only the contract itself may call it. */
  function UpdateRewardCallbackWith(st: State, env: Env, info: MessageInfo, mode: Arithmetic): (r: Result<Step>)
    ensures info.sender != env.contract ==> r == Err(Unauthorized)
    ensures info.sender == env.contract && st.snapshot.None? ==> r == Err(NotFound)
    ensures r.Ok? ==>
              && st.snapshot.Some? && st.snapshot.value <= env.rewardBalance && st.distribution.Some?
              && r.value.msgs == []
              && r.value.state.snapshot.None?
              && RatesGrow(st.assetRates, r.value.state.assetRates)
              && r.value.state.assetRates - Funded(st.distribution.value, st.totals)
                 == st.assetRates - Funded(st.distribution.value, st.totals)
              && r.value.state.(assetRates := st.assetRates, snapshot := st.snapshot) == st
  {
    if info.sender != env.contract then Err(Unauthorized)
    else if st.snapshot.None? then Err(NotFound)
    else
      var harvested :- CheckedSub(env.rewardBalance, st.snapshot.value);
      if st.distribution.None? then Err(NotFound)
      else
        var dist := st.distribution.value;
        var weightTotal :- WeightFold(Zero, dist);
        var rates :- FanOut(st.assetRates, st.totals, dist, harvested, weightTotal, mode);
        Ok(Step(st.(assetRates := rates, snapshot := None), []))
  }

  /** The callback exactly as contract.rs:471-517 writes it. */
  function UpdateRewardCallbackAsWritten(st: State, env: Env, info: MessageInfo): (r: Result<Step>)
    ensures r.Ok? ==> r.value.state.snapshot.None? && RatesGrow(st.assetRates, r.value.state.assetRates)
  {
    UpdateRewardCallbackWith(st, env, info, AsWritten)
  }

  /** The callback with no integer turned into a Decimal: each increment is `RatePerUnit`. */
  function UpdateRewardCallback(st: State, env: Env, info: MessageInfo): (r: Result<Step>)
    ensures r.Ok? ==> r.value.state.snapshot.None? && RatesGrow(st.assetRates, r.value.state.assetRates)
  {
    UpdateRewardCallbackWith(st, env, info, Corrected)
  }

  // ---------------------------------------------------------------------------
  // Properties.
  // ---------------------------------------------------------------------------

  /** The assets of a distribution list are pairwise distinct. */
  predicate DistinctAssets(dist: seq<AssetDistribution>) {
    forall i, j :: 0 <= i < j < |dist| ==> dist[i].asset != dist[j].asset
  }

  /** The increment one entry contributes: the harvest's weighted share per staked unit,
      floored once to 18 decimals. */
  function Expected(harvested: nat, weight: nat, weightTotal: nat, total: nat): nat
    requires weightTotal > 0 && total > 0
  {
    harvested * weight * FRACTIONAL / (weightTotal * total)
  }

  /** Every funded entry of dist had its asset's rate raised from rates to rates' by exactly
      its Expected share of harvested. */
  ghost predicate RaisedBy(dist: seq<AssetDistribution>, totals: map<AssetInfo, Uint128>,
                           rates: map<AssetInfo, Decimal>, rates': map<AssetInfo, Decimal>, harvested: nat)
  {
    forall i :: 0 <= i < |dist| && TotalOf(totals, dist[i].asset) > 0 ==>
      && Weights(dist) > 0
      && RateOf(rates', dist[i].asset).atomics
         == RateOf(rates, dist[i].asset).atomics
            + Expected(harvested, dist[i].distribution.atomics, Weights(dist), TotalOf(totals, dist[i].asset))
  }

  lemma FanOutOneExact(rates: map<AssetInfo, Decimal>, totals: map<AssetInfo, Uint128>, d: AssetDistribution,
                       harvested: Uint128, weightTotal: Decimal, mode: Arithmetic)
    requires FanOutOne(rates, totals, d, harvested, weightTotal, mode).Ok?
    requires TotalOf(totals, d.asset) > 0
    ensures weightTotal.atomics > 0
    ensures RateOf(FanOutOne(rates, totals, d, harvested, weightTotal, mode).value, d.asset).atomics
            == RateOf(rates, d.asset).atomics
               + Expected(harvested, d.distribution.atomics, weightTotal.atomics, TotalOf(totals, d.asset))
  {
    if mode == AsWritten {
      DivDiv(harvested * d.distribution.atomics * FRACTIONAL, weightTotal.atomics, TotalOf(totals, d.asset));
    }
  }

  /** With each asset listed once, the callback raises every funded asset's rate by exactly
      Expected(harvested, weight, Σweights, total). */
  lemma {:induction false} FanOutExact(rates: map<AssetInfo, Decimal>, totals: map<AssetInfo, Uint128>,
                                       dist: seq<AssetDistribution>, harvested: Uint128, weightTotal: Decimal,
                                       mode: Arithmetic)
    requires DistinctAssets(dist)
    requires FanOut(rates, totals, dist, harvested, weightTotal, mode).Ok?
    ensures forall i :: 0 <= i < |dist| && TotalOf(totals, dist[i].asset) > 0 ==>
              weightTotal.atomics > 0
              && RateOf(FanOut(rates, totals, dist, harvested, weightTotal, mode).value, dist[i].asset).atomics
                 == RateOf(rates, dist[i].asset).atomics
                    + Expected(harvested, dist[i].distribution.atomics, weightTotal.atomics, TotalOf(totals, dist[i].asset))
    decreases |dist|
  {
    if dist != [] {
      var next := FanOutOne(rates, totals, dist[0], harvested, weightTotal, mode).value;
      var tail := dist[1..];
      var r := FanOut(next, totals, tail, harvested, weightTotal, mode).value;
      assert r == FanOut(rates, totals, dist, harvested, weightTotal, mode).value;
      assert DistinctAssets(tail) by {
        forall i, j | 0 <= i < j < |tail|
          ensures tail[i].asset != tail[j].asset
        {
          assert tail[i] == dist[i + 1] && tail[j] == dist[j + 1];
        }
      }
      FanOutExact(next, totals, tail, harvested, weightTotal, mode);
      forall i | 0 <= i < |dist| && TotalOf(totals, dist[i].asset) > 0
        ensures weightTotal.atomics > 0
        ensures RateOf(r, dist[i].asset).atomics
                == RateOf(rates, dist[i].asset).atomics
                   + Expected(harvested, dist[i].distribution.atomics, weightTotal.atomics, TotalOf(totals, dist[i].asset))
      {
        if i == 0 {
          FanOutOneExact(rates, totals, dist[0], harvested, weightTotal, mode);
          var a := dist[0].asset;
          assert a !in Funded(tail, totals) by {
            forall j | 0 <= j < |tail|
              ensures tail[j].asset != a
            {
              assert dist[j + 1] == tail[j];
            }
          }
          assert (a in r <==> a in next) && (a in r ==> r[a] == next[a]) by {
            assert r - Funded(tail, totals) == next - Funded(tail, totals);
            assert a in r <==> a in r - Funded(tail, totals);
            assert a in next <==> a in next - Funded(tail, totals);
          }
        } else {
          assert tail[i - 1] == dist[i];
          var a := dist[i].asset;
          assert a != dist[0].asset;
          assert (a in next <==> a in rates) && (a in next ==> next[a] == rates[a]) by {
            assert next - {dist[0].asset} == rates - {dist[0].asset};
            assert a in next <==> a in next - {dist[0].asset};
            assert a in rates <==> a in rates - {dist[0].asset};
          }
        }
      }
    }
  }

  /** What the entries of dist that name asset a add to its rate: one Expected increment
      per entry, so an asset listed twice is paid twice. */
  function ExpectedSum(dist: seq<AssetDistribution>, a: AssetInfo, harvested: nat, weightTotal: nat, total: nat): nat
    requires total > 0
    decreases |dist|
  {
    if dist == [] then 0
    else
      (if dist[0].asset == a && weightTotal > 0
       then Expected(harvested, dist[0].distribution.atomics, weightTotal, total) else 0)
      + ExpectedSum(dist[1..], a, harvested, weightTotal, total)
  }

  /** Whatever the distribution lists, repeats included, a successful fan-out raises every
      funded asset's rate by the sum of the increments of the entries naming it. */
  lemma {:induction false} FanOutSums(rates: map<AssetInfo, Decimal>, totals: map<AssetInfo, Uint128>,
                                      dist: seq<AssetDistribution>, harvested: Uint128, weightTotal: Decimal,
                                      mode: Arithmetic)
    requires FanOut(rates, totals, dist, harvested, weightTotal, mode).Ok?
    ensures forall a :: TotalOf(totals, a) > 0 ==>
              RateOf(FanOut(rates, totals, dist, harvested, weightTotal, mode).value, a).atomics
              == RateOf(rates, a).atomics + ExpectedSum(dist, a, harvested, weightTotal.atomics, TotalOf(totals, a))
    decreases |dist|
  {
    if dist != [] {
      var d := dist[0];
      var next := FanOutOne(rates, totals, d, harvested, weightTotal, mode).value;
      var r := FanOut(next, totals, dist[1..], harvested, weightTotal, mode).value;
      assert r == FanOut(rates, totals, dist, harvested, weightTotal, mode).value;
      FanOutSums(next, totals, dist[1..], harvested, weightTotal, mode);
      forall a | TotalOf(totals, a) > 0
        ensures RateOf(r, a).atomics
                == RateOf(rates, a).atomics + ExpectedSum(dist, a, harvested, weightTotal.atomics, TotalOf(totals, a))
      {
        if a == d.asset {
          FanOutOneExact(rates, totals, d, harvested, weightTotal, mode);
        } else {
          assert (a in next <==> a in rates) && (a in next ==> next[a] == rates[a]) by {
            assert next - {d.asset} == rates - {d.asset};
            assert a in next <==> a in next - {d.asset};
            assert a in rates <==> a in rates - {d.asset};
          }
        }
      }
    }
  }

  /** The callback for any distribution, repeats included: every funded asset's rate rises
      by the sum, over the entries naming it, of Expected(balance − snapshot, w, Σw, total). */
  lemma CallbackSumsRates(st: State, env: Env, info: MessageInfo, mode: Arithmetic)
    requires UpdateRewardCallbackWith(st, env, info, mode).Ok?
    ensures st.snapshot.Some? && st.snapshot.value <= env.rewardBalance && st.distribution.Some?
    ensures forall a :: TotalOf(st.totals, a) > 0 ==>
              RateOf(UpdateRewardCallbackWith(st, env, info, mode).value.state.assetRates, a).atomics
              == RateOf(st.assetRates, a).atomics
                 + ExpectedSum(st.distribution.value, a, env.rewardBalance - st.snapshot.value,
                               Weights(st.distribution.value), TotalOf(st.totals, a))
  {
    var dist := st.distribution.value;
    var harvested := env.rewardBalance - st.snapshot.value;
    var weightTotal := WeightFold(Zero, dist).value;
    assert weightTotal.atomics == Weights(dist);
    FanOutSums(st.assetRates, st.totals, dist, harvested, weightTotal, mode);
  }

  /** The callback distributes exactly what arrived since the snapshot: with each asset listed
      once, every funded asset's rate rises by
      Expected(rewardBalance − snapshot, weight, Σweights, total). */
  lemma CallbackRaisesRates(st: State, env: Env, info: MessageInfo, mode: Arithmetic)
    requires UpdateRewardCallbackWith(st, env, info, mode).Ok?
    requires st.distribution.Some? && DistinctAssets(st.distribution.value)
    ensures st.snapshot.Some? && st.snapshot.value <= env.rewardBalance
    ensures RaisedBy(st.distribution.value, st.totals, st.assetRates,
                     UpdateRewardCallbackWith(st, env, info, mode).value.state.assetRates,
                     env.rewardBalance - st.snapshot.value)
  {
    var dist := st.distribution.value;
    var harvested := env.rewardBalance - st.snapshot.value;
    var weightTotal := WeightFold(Zero, dist).value;
    FanOutExact(st.assetRates, st.totals, dist, harvested, weightTotal, mode);
  }

  lemma {:induction false} FanOutAsWrittenAgrees(rates: map<AssetInfo, Decimal>, totals: map<AssetInfo, Uint128>,
                                                 dist: seq<AssetDistribution>, harvested: Uint128, weightTotal: Decimal)
    requires FanOut(rates, totals, dist, harvested, weightTotal, AsWritten).Ok?
    ensures FanOut(rates, totals, dist, harvested, weightTotal, Corrected)
            == FanOut(rates, totals, dist, harvested, weightTotal, AsWritten)
    decreases |dist|
  {
    if dist != [] {
      var d := dist[0];
      var total := TotalOf(totals, d.asset);
      if total > 0 {
        IncrementAgrees(harvested, d.distribution, weightTotal, total);
      }
      assert FanOutOne(rates, totals, d, harvested, weightTotal, Corrected)
          == FanOutOne(rates, totals, d, harvested, weightTotal, AsWritten);
      var next := FanOutOne(rates, totals, d, harvested, weightTotal, AsWritten).value;
      FanOutAsWrittenAgrees(next, totals, dist[1..], harvested, weightTotal);
    }
  }

  /** Wherever the two conversions as written succeed, the corrected increment is the same. */
  lemma IncrementAgrees(harvested: Uint128, weight: Decimal, weightTotal: Decimal, total: Uint128)
    requires total > 0 && AssetShare(harvested, weight, weightTotal).Ok?
    requires Increment(AssetShare(harvested, weight, weightTotal).value, total).Ok?
    ensures RatePerUnit(harvested, weight, weightTotal, total)
            == Increment(AssetShare(harvested, weight, weightTotal).value, total)
  {
    DivDiv(harvested * weight.atomics * FRACTIONAL, weightTotal.atomics, total);
  }

  /** With a weight no larger than Σweights, the corrected increment exists whenever the
      harvest per staked unit fits in a Decimal, however large the harvest or the total. */
  lemma RatePerUnitFits(harvested: Uint128, weight: Decimal, weightTotal: Decimal, total: Uint128)
    requires total > 0 && 0 < weightTotal.atomics && weight.atomics <= weightTotal.atomics
    requires harvested * FRACTIONAL <= MAX * total
    ensures RatePerUnit(harvested, weight, weightTotal, total).Ok?
  {
    var h, w, wt := harvested * FRACTIONAL, weight.atomics, weightTotal.atomics;
    var n, d := harvested * weight.atomics * FRACTIONAL, weightTotal.atomics * total;
    assert n == w * h;
    assert w * h <= wt * h by { MulLeMono(w, wt, h); }
    assert h * wt <= (MAX * total) * wt by { MulLeMono(h, MAX * total, wt); }
    assert (MAX * total) * wt == MAX * d;
    DivAtMost(n, d, MAX);
  }

  /** Wherever the callback as written succeeds, it agrees with the corrected one. */
  lemma CallbackAsWrittenAgrees(st: State, env: Env, info: MessageInfo)
    requires UpdateRewardCallbackAsWritten(st, env, info).Ok?
    ensures UpdateRewardCallback(st, env, info) == UpdateRewardCallbackAsWritten(st, env, info)
  {
    var harvested := env.rewardBalance - st.snapshot.value;
    var dist := st.distribution.value;
    var weightTotal := WeightFold(Zero, dist).value;
    FanOutAsWrittenAgrees(st.assetRates, st.totals, dist, harvested, weightTotal);
  }

  /** The discrepancy: 1000 whole units of an 18-decimal asset are staked and 1000 units of
      the reward denom arrive. The corrected callback raises the rate by 10^-18; the code as
      written aborts the whole harvest. */
  lemma CallbackAsWrittenRejectsLargeTotal()
    ensures
      var asset := Native("inj");
      var env := Env("hub", 1000);
      var st := State(Config("gov", "ctrl", "", 0, 0, "uluna"), map[asset := "injective-1"],
                      map[], map[asset := 1_000_000_000_000_000_000_000], {},
                      Some([AssetDistribution(asset, Decimal(FRACTIONAL))]),
                      map[], map[], map[], Some(0));
      && UpdateRewardCallbackAsWritten(st, env, MessageInfo("hub", [])) == Err(DecimalRangeExceeded)
      && UpdateRewardCallback(st, env, MessageInfo("hub", [])).Ok?
      && UpdateRewardCallback(st, env, MessageInfo("hub", [])).value.state.assetRates == map[asset := Decimal(1)]
  {
    var asset := Native("inj");
    var d := AssetDistribution(asset, Decimal(FRACTIONAL));
    var totals := map[asset := 1_000_000_000_000_000_000_000];
    assert Weights([d]) == FRACTIONAL;
    assert WeightFold(Zero, [d]) == Ok(Decimal(FRACTIONAL));
    var share := AssetShare(1000, Decimal(FRACTIONAL), Decimal(FRACTIONAL));
    assert share == Ok(Decimal(1000 * FRACTIONAL));
    assert Increment(share.value, 1_000_000_000_000_000_000_000) == Err(DecimalRangeExceeded);
    assert RatePerUnit(1000, Decimal(FRACTIONAL), Decimal(FRACTIONAL), 1_000_000_000_000_000_000_000) == Ok(Decimal(1));
    assert FanOut(map[], totals, [d], 1000, Decimal(FRACTIONAL), AsWritten) == Err(DecimalRangeExceeded);
    assert FanOutOne(map[], totals, d, 1000, Decimal(FRACTIONAL), Corrected) == Ok(map[asset := Decimal(1)]);
    assert FanOut(map[], totals, [d], 1000, Decimal(FRACTIONAL), Corrected) == Ok(map[asset := Decimal(1)]);
  }

  /** As written, any harvest above MAX / 10^18 makes the callback fail: the first entry's
      share already fails at `from_atomics(rewards_collected, 0)`. */
  lemma CallbackAsWrittenRejectsLargeHarvest(st: State, env: Env, info: MessageInfo)
    requires info.sender == env.contract && st.snapshot.Some? && st.snapshot.value <= env.rewardBalance
    requires (env.rewardBalance - st.snapshot.value) * FRACTIONAL > MAX
    requires st.distribution.Some? && |st.distribution.value| > 0
    requires Weights(st.distribution.value) <= MAX
    ensures UpdateRewardCallbackAsWritten(st, env, info) == Err(DecimalRangeExceeded)
  {
    var dist := st.distribution.value;
    var harvested := env.rewardBalance - st.snapshot.value;
    var weightTotal := WeightFold(Zero, dist).value;
    assert AssetShare(harvested, dist[0].distribution, weightTotal) == Err(DecimalRangeExceeded);
    assert FanOut(st.assetRates, st.totals, dist, harvested, weightTotal, AsWritten) == Err(DecimalRangeExceeded);
  }

  /** The discrepancy at the harvest: 1000 whole units of an 18-decimal reward denom arrive
      for a single fully weighted asset with 10^6 atomics staked. The code as written aborts
      the harvest; the corrected callback raises the rate by 10^33 atomics. */
  lemma CallbackAsWrittenRejectsHarvest()
    ensures
      var asset := Native("inj");
      var env := Env("hub", 1_000_000_000_000_000_000_000);
      var st := State(Config("gov", "ctrl", "", 0, 0, "uluna"), map[asset := "injective-1"],
                      map[], map[asset := 1_000_000], {},
                      Some([AssetDistribution(asset, Decimal(FRACTIONAL))]),
                      map[], map[], map[], Some(0));
      && UpdateRewardCallbackAsWritten(st, env, MessageInfo("hub", [])) == Err(DecimalRangeExceeded)
      && UpdateRewardCallback(st, env, MessageInfo("hub", [])).Ok?
      && UpdateRewardCallback(st, env, MessageInfo("hub", [])).value.state.assetRates
         == map[asset := Decimal(1_000_000_000_000_000_000_000_000_000_000_000)]
  {
    var asset := Native("inj");
    var d := AssetDistribution(asset, Decimal(FRACTIONAL));
    var totals := map[asset := 1_000_000];
    var harvested := 1_000_000_000_000_000_000_000;
    assert Weights([d]) == FRACTIONAL;
    assert WeightFold(Zero, [d]) == Ok(Decimal(FRACTIONAL));
    assert AssetShare(harvested, Decimal(FRACTIONAL), Decimal(FRACTIONAL)) == Err(DecimalRangeExceeded);
    assert FanOut(map[], totals, [d], harvested, Decimal(FRACTIONAL), AsWritten) == Err(DecimalRangeExceeded);
    assert RatePerUnit(harvested, Decimal(FRACTIONAL), Decimal(FRACTIONAL), 1_000_000)
        == Ok(Decimal(1_000_000_000_000_000_000_000_000_000_000_000));
    assert FanOutOne(map[], totals, d, harvested, Decimal(FRACTIONAL), Corrected)
        == Ok(map[asset := Decimal(1_000_000_000_000_000_000_000_000_000_000_000)]);
    assert FanOut(map[], totals, [d], harvested, Decimal(FRACTIONAL), Corrected)
        == Ok(map[asset := Decimal(1_000_000_000_000_000_000_000_000_000_000_000)]);
  }
}

=== FILE: ledger.dfy ===
/** The staking ledger and reward settlement of contracts/alliance-hub/src/contract.rs:
    whitelist_assets, remove_assets, stake, unstake, claim_rewards and _claim_reward. */
module Ledger {
  import opened Errors
  import opened Uint
  import opened Decimal
  import opened Asset
  import opened State

  datatype WhitelistEntry = WhitelistEntry(asset: AssetInfo, chain: ChainId)

  /** cw_asset's `Asset`: an asset together with an amount of it. */
  datatype AssetAmount = AssetAmount(info: AssetInfo, amount: Uint128)

  /** The result of `_claim_reward`: the reward owed and the state it commits. */
  datatype Claim = Claim(amount: Uint128, state: State)

  // ---------------------------------------------------------------------------
  // Whitelist (governance only).
  // ---------------------------------------------------------------------------

  /** No later entry names the same asset as entry i, so entry i's chain is the one kept. */
  predicate LastFor(entries: seq<WhitelistEntry>, i: int)
    requires 0 <= i < |entries|
  {
    forall j :: i < j < |entries| ==> entries[j].asset != entries[i].asset
  }

  /** The assets an entry list names. */
  function EntryAssets(entries: seq<WhitelistEntry>): set<AssetInfo> {
    set i | 0 <= i < |entries| :: entries[i].asset
  }

  lemma EntryAssetsCons(entries: seq<WhitelistEntry>)
    requires entries != []
    ensures EntryAssets(entries) == {entries[0].asset} + EntryAssets(entries[1..])
  {
    var tail := entries[1..];
    forall a | a in EntryAssets(entries)
      ensures a in {entries[0].asset} + EntryAssets(tail)
    {
      var i :| 0 <= i < |entries| && entries[i].asset == a;
      if i > 0 { assert tail[i - 1].asset == a; }
    }
    forall a | a in EntryAssets(tail)
      ensures a in EntryAssets(entries)
    {
      var i :| 0 <= i < |tail| && tail[i].asset == a;
      assert entries[i + 1].asset == a;
    }
  }

  /** The last entry for an asset stays the last one once the head is dropped; the head,
      if last for its asset, is not named again. */
  lemma LastForCons(entries: seq<WhitelistEntry>)
    requires entries != []
    ensures forall i :: 0 < i < |entries| && LastFor(entries, i) ==> LastFor(entries[1..], i - 1)
    ensures LastFor(entries, 0) ==> entries[0].asset !in EntryAssets(entries[1..])
  {
    var tail := entries[1..];
    forall i | 0 < i < |entries| && LastFor(entries, i)
      ensures LastFor(tail, i - 1)
    {
      forall j | i - 1 < j < |tail|
        ensures tail[j].asset != tail[i - 1].asset
      {
        assert tail[j] == entries[j + 1];
      }
    }
    if LastFor(entries, 0) {
      forall j | 0 <= j < |tail|
        ensures tail[j].asset != entries[0].asset
      {
        assert entries[j + 1] == tail[j];
      }
    }
  }

  /** The whitelist after saving every entry in turn. */
  function SaveAll(wl: map<AssetInfo, ChainId>, entries: seq<WhitelistEntry>): (r: map<AssetInfo, ChainId>)
    ensures r.Keys == wl.Keys + EntryAssets(entries)
    ensures forall i :: 0 <= i < |entries| && LastFor(entries, i) ==> r[entries[i].asset] == entries[i].chain
    ensures forall a :: a in wl && a !in EntryAssets(entries) ==> r[a] == wl[a]
    decreases |entries|
  {
    if entries == [] then wl
    else
      var e, tail := entries[0], entries[1..];
      var rest := SaveAll(wl[e.asset := e.chain], tail);
      EntryAssetsCons(entries);
      LastForCons(entries);
      assert forall i :: 0 < i < |entries| ==> entries[i] == tail[i - 1];
      rest
  }

  function WhitelistAssets(st: State, info: MessageInfo, entries: seq<WhitelistEntry>): (r: Result<Step>)
    ensures r.Err? <==> info.sender != st.config.governance
    ensures r.Err? ==> r.error == Unauthorized
    ensures r.Ok? ==> r.value.msgs == [] && r.value.state.(whitelist := st.whitelist) == st
    ensures r.Ok? ==> r.value.state.whitelist.Keys == st.whitelist.Keys + EntryAssets(entries)
    ensures r.Ok? ==> forall i :: 0 <= i < |entries| && LastFor(entries, i) ==>
                        r.value.state.whitelist[entries[i].asset] == entries[i].chain
  {
    if info.sender != st.config.governance then Err(Unauthorized)
    else Ok(Step(st.(whitelist := SaveAll(st.whitelist, entries)), []))
  }

  /** The whitelist after removing every listed asset in turn. */
  function RemoveAll(wl: map<AssetInfo, ChainId>, assets: seq<AssetInfo>): (r: map<AssetInfo, ChainId>)
    ensures r.Keys == wl.Keys - (set i | 0 <= i < |assets| :: assets[i])
    ensures forall a :: a in r ==> r[a] == wl[a]
    decreases |assets|
  {
    if assets == [] then wl
    else
      var rest := RemoveAll(wl - {assets[0]}, assets[1..]);
      assert (set i | 0 <= i < |assets| :: assets[i])
          == {assets[0]} + (set i | 0 <= i < |assets[1..]| :: assets[1..][i]);
      rest
  }

  /** Removal deletes whitelist entries only: balances, totals and rates stay, so
      existing positions can still be unstaked and claimed. */
  function RemoveAssets(st: State, info: MessageInfo, assets: seq<AssetInfo>): (r: Result<Step>)
    ensures r.Err? <==> info.sender != st.config.governance
    ensures r.Err? ==> r.error == Unauthorized
    ensures r.Ok? ==> r.value.msgs == [] && r.value.state.(whitelist := st.whitelist) == st
    ensures r.Ok? ==> r.value.state.whitelist.Keys == st.whitelist.Keys - (set i | 0 <= i < |assets| :: assets[i])
    ensures r.Ok? ==> forall a :: a in r.value.state.whitelist ==> r.value.state.whitelist[a] == st.whitelist[a]
  {
    if info.sender != st.config.governance then Err(Unauthorized)
    else Ok(Step(st.(whitelist := RemoveAll(st.whitelist, assets)), []))
  }

  // ---------------------------------------------------------------------------
  // Stake and unstake.
  // ---------------------------------------------------------------------------

  /** Deposits the single attached coin. Pending rewards are not settled first: the
      checkpoint is overwritten with the asset's current rate (zero if none is stored). */
  function Stake(st: State, info: MessageInfo): (r: Result<Step>)
    ensures |info.funds| != 1 ==> r == Err(OnlySingleAssetAllowed)
    ensures |info.funds| == 1 && info.funds[0].amount == 0 ==> r == Err(AmountCannotBeZero)
    ensures (|info.funds| == 1 && info.funds[0].amount > 0 && Native(info.funds[0].denom) !in st.whitelist)
              ==> r == Err(AssetNotWhitelisted)
    ensures r.Ok? <==>
              && |info.funds| == 1
              && info.funds[0].amount > 0
              && Native(info.funds[0].denom) in st.whitelist
              && BalanceOf(st.balances, (info.sender, Native(info.funds[0].denom))) + info.funds[0].amount <= MAX
              && TotalOf(st.totals, Native(info.funds[0].denom)) + info.funds[0].amount <= MAX
    ensures r.Ok? ==>
              var a, amt := Native(info.funds[0].denom), info.funds[0].amount;
              var p, st' := (info.sender, a), r.value.state;
              && r.value.msgs == []
              && p in st'.balances && st'.balances[p] == BalanceOf(st.balances, p) + amt
              && a in st'.totals && st'.totals[a] == TotalOf(st.totals, a) + amt
              && p in st'.userRates && st'.userRates[p] == RateOf(st.assetRates, a)
              && st'.balances - {p} == st.balances - {p}
              && st'.totals - {a} == st.totals - {a}
              && st'.userRates - {p} == st.userRates - {p}
              && st'.(balances := st.balances, totals := st.totals, userRates := st.userRates) == st
  {
    if |info.funds| != 1 then Err(OnlySingleAssetAllowed)
    else if info.funds[0].amount == 0 then Err(AmountCannotBeZero)
    else
      var a := Native(info.funds[0].denom);
      var amt := info.funds[0].amount;
      if a !in st.whitelist then Err(AssetNotWhitelisted)
      else
        var p := (info.sender, a);
        var balance :- CheckedAdd(BalanceOf(st.balances, p), amt);
        var total :- CheckedAdd(TotalOf(st.totals, a), amt);
        Ok(Step(st.(balances := st.balances[p := balance],
                    totals := st.totals[a := total],
                    userRates := st.userRates[p := RateOf(st.assetRates, a)]), []))
  }

  /** Withdraws `asset.amount` of the caller's balance. The whitelist is not consulted. */
  function Unstake(st: State, info: MessageInfo, asset: AssetAmount): (r: Result<Step>)
    ensures asset.amount == 0 ==> r == Err(AmountCannotBeZero)
    ensures (asset.amount > 0 && BalanceOf(st.balances, (info.sender, asset.info)) < asset.amount)
              ==> r == Err(InsufficientBalance)
    ensures (asset.amount > 0 && TotalOf(st.totals, asset.info) < asset.amount)
              ==> r == Err(InsufficientBalance)
    ensures r.Ok? <==>
              && asset.amount > 0
              && (info.sender, asset.info) in st.balances
              && asset.amount <= st.balances[(info.sender, asset.info)]
              && asset.amount <= TotalOf(st.totals, asset.info)
    ensures r.Ok? ==>
              var a, amt := asset.info, asset.amount;
              var p, st' := (info.sender, a), r.value.state;
              && r.value.msgs == [Transfer(info.sender, a, amt)]
              && p in st'.balances && st'.balances[p] + amt == st.balances[p]
              && a in st'.totals && st'.totals[a] + amt == TotalOf(st.totals, a)
              && st'.balances - {p} == st.balances - {p}
              && st'.totals - {a} == st.totals - {a}
              && st'.(balances := st.balances, totals := st.totals) == st
  {
    if asset.amount == 0 then Err(AmountCannotBeZero)
    else
      var p := (info.sender, asset.info);
      if p !in st.balances || st.balances[p] < asset.amount then Err(InsufficientBalance)
      else if TotalOf(st.totals, asset.info) < asset.amount then Err(InsufficientBalance)
      else
        Ok(Step(st.(balances := st.balances[p := st.balances[p] - asset.amount],
                    totals := st.totals[asset.info := TotalOf(st.totals, asset.info) - asset.amount]),
                [Transfer(info.sender, asset.info, asset.amount)]))
  }

  // ---------------------------------------------------------------------------
  // Reward settlement.
  // ---------------------------------------------------------------------------

  /** The reward owed at position p: floor((asset rate - checkpoint) * balance), all three
      read from storage without defaults. */
  function Owed(st: State, p: Position): nat
    requires p in st.userRates && p.1 in st.assetRates && p in st.balances
    requires st.userRates[p].atomics <= st.assetRates[p.1].atomics
  {
    st.balances[p] * (st.assetRates[p.1].atomics - st.userRates[p].atomics) / FRACTIONAL
  }

  /** The settlement step shared by both readings of `_claim_reward`: a zero reward commits
      nothing; a positive one advances the checkpoint to the asset rate. */
  function Settle(st: State, p: Position, rewards: Uint128): Claim
    requires p.1 in st.assetRates
  {
    if rewards == 0 then Claim(0, st)
    else Claim(rewards, st.(userRates := st.userRates[p := st.assetRates[p.1]]))
  }

  /** `_claim_reward` exactly as contract.rs:297-303 computes it: the balance is first turned
      into a Decimal with `from_atomics(balance, 0)`, which fails for balances above
      MAX / 10^18 however small the reward. */
  function ClaimRewardAsWritten(st: State, user: Addr, asset: AssetInfo): (r: Result<Claim>)
    ensures (user, asset) !in st.userRates || asset !in st.assetRates || (user, asset) !in st.balances
            ==> r == Err(NotFound)
    ensures ((user, asset) in st.userRates && asset in st.assetRates && (user, asset) in st.balances
              && st.assetRates[asset].atomics < st.userRates[(user, asset)].atomics)
              ==> r == Err(Overflow(Subtraction))
    ensures ((user, asset) in st.userRates && asset in st.assetRates && (user, asset) in st.balances
              && st.userRates[(user, asset)].atomics <= st.assetRates[asset].atomics)
              ==> (r == Err(DecimalRangeExceeded) <==> st.balances[(user, asset)] * FRACTIONAL > MAX)
    ensures r.Ok? <==>
              var p := (user, asset);
              && p in st.userRates && asset in st.assetRates && p in st.balances
              && st.userRates[p].atomics <= st.assetRates[asset].atomics
              && st.balances[p] * FRACTIONAL <= MAX
              && (st.assetRates[asset].atomics - st.userRates[p].atomics) * st.balances[p] <= MAX
    ensures r.Ok? ==> r.value.amount == Owed(st, (user, asset))
    ensures r.Ok? ==> r.value == Settle(st, (user, asset), r.value.amount)
  {
    var p := (user, asset);
    if p !in st.userRates || asset !in st.assetRates || p !in st.balances then Err(NotFound)
    else
      var diff :- Sub(st.assetRates[asset], st.userRates[p]);
      var staked :- FromInteger(st.balances[p]);
      MulByInteger(diff, st.balances[p]);
      var product :- Mul(diff, staked);
      assert product.atomics == diff.atomics * st.balances[p];
      Ok(Settle(st, p, Floor(product)))
  }

  /** `_claim_reward` with the reward computed as Decimal * Uint128, the form the pending
      reward query uses (query.rs:83), so no range limit applies to the balance. */
  function ClaimReward(st: State, user: Addr, asset: AssetInfo): (r: Result<Claim>)
    ensures (user, asset) !in st.userRates ==> r == Err(NotFound)
    ensures asset !in st.assetRates ==> r == Err(NotFound)
    ensures (user, asset) !in st.balances ==> r == Err(NotFound)
    ensures ((user, asset) in st.userRates && asset in st.assetRates && (user, asset) in st.balances
              && st.assetRates[asset].atomics < st.userRates[(user, asset)].atomics)
              ==> r == Err(Overflow(Subtraction))
    ensures r.Ok? <==>
              var p := (user, asset);
              && p in st.userRates && asset in st.assetRates && p in st.balances
              && st.userRates[p].atomics <= st.assetRates[asset].atomics
              && Owed(st, p) <= MAX
    ensures r.Ok? ==>
              var p, c := (user, asset), r.value;
              && c.amount == Owed(st, p)
              && (c.amount == 0 ==> c.state == st)
              && (c.amount > 0 ==>
                    && p in c.state.userRates && c.state.userRates[p] == st.assetRates[asset]
                    && c.state.userRates - {p} == st.userRates - {p}
                    && c.state.(userRates := st.userRates) == st)
  {
    var p := (user, asset);
    if p !in st.userRates || asset !in st.assetRates || p !in st.balances then Err(NotFound)
    else
      var diff :- Sub(st.assetRates[asset], st.userRates[p]);
      var rewards :- MulInteger(diff, st.balances[p]);
      Ok(Settle(st, p, rewards))
  }

  /** `_claim_reward` in the chosen arithmetic. */
  function Settlement(st: State, user: Addr, asset: AssetInfo, mode: Arithmetic): Result<Claim> {
    match mode
    case AsWritten => ClaimRewardAsWritten(st, user, asset)
    case Corrected => ClaimReward(st, user, asset)
  }

  /** `claim_rewards`: settles the caller's position and pays the reward out in the reward
      denom; a zero reward sends nothing, and a failed settlement fails the call with its
      own error. Both arithmetics commit the same state wherever they succeed. */
  function ClaimRewards(st: State, info: MessageInfo, asset: AssetInfo, mode: Arithmetic): (r: Result<Step>)
    ensures mode == AsWritten ==> (r.Ok? <==> ClaimRewardAsWritten(st, info.sender, asset).Ok?)
    ensures mode == Corrected ==> (r.Ok? <==> ClaimReward(st, info.sender, asset).Ok?)
    ensures r.Err? ==> Settlement(st, info.sender, asset, mode) == Err(r.error)
    ensures r.Ok? ==>
              var p := (info.sender, asset);
              var paid := Owed(st, p);
              && ClaimReward(st, info.sender, asset).Ok?
              && r.value.state == ClaimReward(st, info.sender, asset).value.state
              && (paid == 0 ==> r.value.msgs == [] && r.value.state == st)
              && (paid > 0 ==> r.value.msgs == [Transfer(info.sender, Native(st.config.rewardDenom), paid)])
  {
    var settled := Settlement(st, info.sender, asset, mode);
    if settled.Err? then Err(settled.error)
    else
      var claim := settled.value;
      assert settled == ClaimReward(st, info.sender, asset) by {
        if mode == AsWritten { ClaimAsWrittenAgrees(st, info.sender, asset); }
      }
      var msgs := if claim.amount == 0 then [] else [Transfer(info.sender, Native(st.config.rewardDenom), claim.amount)];
      Ok(Step(claim.state, msgs))
  }

  // ---------------------------------------------------------------------------
  // Properties.
  // ---------------------------------------------------------------------------

  /** A second claim with no rate change in between pays nothing and commits nothing. */
  lemma ClaimTwiceYieldsZero(st: State, user: Addr, asset: AssetInfo)
    requires ClaimReward(st, user, asset).Ok?
    ensures var c := ClaimReward(st, user, asset).value;
            ClaimReward(c.state, user, asset) == Ok(Claim(0, c.state))
  {
    var c := ClaimReward(st, user, asset).value;
    var p := (user, asset);
    var rate := st.assetRates[asset];
    if c.amount > 0 {
      assert c.state == st.(userRates := st.userRates[p := rate]);
      assert Sub(rate, rate) == Ok(Zero);
      assert MulInteger(Zero, c.state.balances[p]) == Ok(0);
      assert Settle(c.state, p, 0) == Claim(0, c.state);
    } else {
      assert c == Claim(0, st);
    }
  }

  /** While checkpoints never exceed rates, the rate subtraction of a claim cannot underflow,
      in either arithmetic. */
  lemma ClaimNeverUnderflows(st: State, user: Addr, asset: AssetInfo)
    requires CheckpointsBounded(st)
    ensures ClaimReward(st, user, asset) != Err(Overflow(Subtraction))
    ensures ClaimRewardAsWritten(st, user, asset) != Err(Overflow(Subtraction))
  {
    var p := (user, asset);
    if p in st.userRates && asset in st.assetRates && p in st.balances {
      assert st.userRates[p].atomics <= RateOf(st.assetRates, asset).atomics;
    }
  }

  /** Wherever the code as written succeeds, it agrees with the corrected claim. */
  lemma ClaimAsWrittenAgrees(st: State, user: Addr, asset: AssetInfo)
    requires ClaimRewardAsWritten(st, user, asset).Ok?
    ensures ClaimReward(st, user, asset) == ClaimRewardAsWritten(st, user, asset)
  {
    var p := (user, asset);
    var owed := Owed(st, p);
    var b := st.balances[p];
    var x := st.assetRates[asset].atomics - st.userRates[p].atomics;
    assert b * FRACTIONAL <= MAX;
    assert x * b <= MAX by {
      var staked := FromInteger(b).value;
      MulByInteger(Decimal(x), b);
      assert Mul(Decimal(x), staked).Ok?;
    }
    DivLeNumerator(b * x, FRACTIONAL);
  }

  /** The discrepancy: 1000 whole units of an 18-decimal asset with a pending reward of
      0.001 per unit. The corrected claim pays 10^18; the code as written fails. */
  lemma ClaimAsWrittenRejectsLargeBalance()
    ensures
      var user, asset := "staker", Native("inj");
      var p := (user, asset);
      var st := State(Config("gov", "ctrl", "", 0, 0, "uluna"), map[asset := "injective-1"],
                      map[p := 1_000_000_000_000_000_000_000], map[asset := 1_000_000_000_000_000_000_000],
                      {}, None, map[asset := Decimal(1_000_000_000_000_000)], map[p := Zero], map[], None);
      && ClaimRewardAsWritten(st, user, asset) == Err(DecimalRangeExceeded)
      && ClaimReward(st, user, asset).Ok?
      && ClaimReward(st, user, asset).value.amount == 1_000_000_000_000_000_000
  {
  }

  /** After a stake, nothing is claimable: rewards pending before it are forfeited. */
  lemma StakeForfeitsPending(st: State, info: MessageInfo)
    requires Stake(st, info).Ok?
    ensures var a := Native(info.funds[0].denom);
            var st' := Stake(st, info).value.state;
            a in st'.assetRates ==> ClaimReward(st', info.sender, a) == Ok(Claim(0, st'))
  {
  }

  lemma StakePreservesInvariant(st: State, info: MessageInfo)
    requires Invariant(st) && Stake(st, info).Ok?
    ensures Invariant(Stake(st, info).value.state)
  {
    var st' := Stake(st, info).value.state;
    var a, amt := Native(info.funds[0].denom), info.funds[0].amount;
    var p := (info.sender, a);
    assert st'.balances == st.balances[p := BalanceOf(st.balances, p) + amt];
    StakedUpdate(st.balances, p, BalanceOf(st.balances, p) + amt);
    forall b
      ensures Staked(st'.balances, b) == TotalOf(st'.totals, b)
    {
      if b != a {
        assert Staked(st'.balances, b) == Staked(st.balances, b);
        assert TotalOf(st'.totals, b) == TotalOf(st.totals, b);
      }
    }
  }

  lemma UnstakePreservesInvariant(st: State, info: MessageInfo, asset: AssetAmount)
    requires Invariant(st) && Unstake(st, info, asset).Ok?
    ensures Invariant(Unstake(st, info, asset).value.state)
  {
    var st' := Unstake(st, info, asset).value.state;
    var a, p := asset.info, (info.sender, asset.info);
    assert st'.balances == st.balances[p := st.balances[p] - asset.amount];
    StakedUpdate(st.balances, p, st.balances[p] - asset.amount);
    forall b
      ensures Staked(st'.balances, b) == TotalOf(st'.totals, b)
    {
      if b != a {
        assert Staked(st'.balances, b) == Staked(st.balances, b);
        assert TotalOf(st'.totals, b) == TotalOf(st.totals, b);
      }
    }
  }

  lemma ClaimRewardsPreservesInvariant(st: State, info: MessageInfo, asset: AssetInfo, mode: Arithmetic)
    requires Invariant(st) && ClaimRewards(st, info, asset, mode).Ok?
    ensures Invariant(ClaimRewards(st, info, asset, mode).value.state)
  {
    var st' := ClaimRewards(st, info, asset, mode).value.state;
    assert st'.balances == st.balances && st'.totals == st.totals;
    assert forall b :: Staked(st'.balances, b) == Staked(st.balances, b);
  }

  /** The whitelist is not consulted by unstake: replacing it changes nothing else. */
  lemma UnstakeIgnoresWhitelist(st: State, info: MessageInfo, asset: AssetAmount, wl: map<AssetInfo, ChainId>)
    ensures var r, r' := Unstake(st, info, asset), Unstake(st.(whitelist := wl), info, asset);
            && (r.Ok? <==> r'.Ok?)
            && (r.Err? ==> r' == r)
            && (r.Ok? ==> r'.value == Step(r.value.state.(whitelist := wl), r.value.msgs))
  {
  }

  /** Unstaking exactly what was just staked succeeds, returns the coin, and restores every
      balance and total (a position created by the stake is left at zero). */
  lemma StakeThenUnstake(st: State, info: MessageInfo)
    requires Stake(st, info).Ok?
    ensures var coin := info.funds[0];
            var st' := Stake(st, info).value.state;
            var back := Unstake(st', info, AssetAmount(Native(coin.denom), coin.amount));
            && back.Ok?
            && back.value.msgs == [Transfer(info.sender, Native(coin.denom), coin.amount)]
            && (forall q :: BalanceOf(back.value.state.balances, q) == BalanceOf(st.balances, q))
            && (forall a :: TotalOf(back.value.state.totals, a) == TotalOf(st.totals, a))
  {
    var coin := info.funds[0];
    var a, p := Native(coin.denom), (info.sender, Native(coin.denom));
    var st' := Stake(st, info).value.state;
    var st'' := Unstake(st', info, AssetAmount(a, coin.amount)).value.state;
    forall q
      ensures BalanceOf(st''.balances, q) == BalanceOf(st.balances, q)
    {
      if q != p {
        assert q !in st''.balances - {p} <==> q !in st.balances - {p};
      }
    }
    forall b
      ensures TotalOf(st''.totals, b) == TotalOf(st.totals, b)
    {
      if b != a {
        assert b !in st''.totals - {a} <==> b !in st.totals - {a};
      }
    }
  }

  /** Removing (at least) the assets a whitelisting named takes the whitelist back to
      what it was, less the removed assets. */
  lemma RemoveUndoesWhitelist(wl: map<AssetInfo, ChainId>, entries: seq<WhitelistEntry>, assets: seq<AssetInfo>)
    requires EntryAssets(entries) <= (set i | 0 <= i < |assets| :: assets[i])
    ensures RemoveAll(SaveAll(wl, entries), assets) == wl - (set i | 0 <= i < |assets| :: assets[i])
  {
    var removed := set i | 0 <= i < |assets| :: assets[i];
    var r := RemoveAll(SaveAll(wl, entries), assets);
    assert r.Keys == (wl - removed).Keys;
    assert forall a :: a in r ==> a !in EntryAssets(entries);
  }
}

=== FILE: migrations.dfy ===
/** `migrate_state` of contracts/alliance-hub/src/migrations.rs as a pure transform of the
    storage items it touches: the config is re-encoded with the take-rate fields, and the
    balance layout (TOTAL_BALANCES, BALANCES) is moved into the share layout
    (TOTAL_BALANCES_SHARES, SHARES) at one share per unit. */
module Migration {
  import opened Errors
  import opened Uint
  import opened Decimal
  import opened Asset
  import opened State

  const DefaultYearlyTakeRatePercent: nat := 5

  datatype OldConfig = OldConfig(
    governance: Addr,
    controller: Addr,
    oracle: Addr,
    operator: Addr,
    lastRewardUpdateTimestamp: nat,
    allianceTokenDenom: string,
    allianceTokenSupply: Uint128,
    rewardDenom: string)

  datatype NewConfig = NewConfig(
    governance: Addr,
    controller: Addr,
    oracle: Addr,
    operator: Addr,
    takeRateTaker: Addr,
    lastRewardUpdateTimestamp: nat,
    allianceTokenDenom: string,
    allianceTokenSupply: Uint128,
    rewardDenom: string,
    defaultYearlyTakeRate: Decimal)

  /** What the "config" item holds: the old encoding, the new one (which the old struct's
      strict decoder rejects), or nothing at all. */
  datatype ConfigSlot = OldLayout(previous: OldConfig) | NewLayout(current: NewConfig) | Absent

  /** A total balance paired with the shares issued against it. */
  datatype BalanceShares = BalanceShares(balance: Uint128, shares: Uint128)

  datatype Store = Store(
    config: ConfigSlot,
    totalBalances: map<AssetInfo, Uint128>,
    balances: map<Position, Uint128>,
    totalBalancesShares: map<AssetInfo, BalanceShares>,
    shares: map<Position, Uint128>)

  function Upgrade(c: OldConfig): (r: NewConfig)
    ensures r.governance == c.governance && r.controller == c.controller
    ensures r.oracle == c.oracle && r.operator == c.operator
    ensures r.lastRewardUpdateTimestamp == c.lastRewardUpdateTimestamp
    ensures r.allianceTokenDenom == c.allianceTokenDenom && r.allianceTokenSupply == c.allianceTokenSupply
    ensures r.rewardDenom == c.rewardDenom
    ensures r.takeRateTaker == ""
    ensures r.defaultYearlyTakeRate.atomics * 100 == DefaultYearlyTakeRatePercent * FRACTIONAL
  {
    NewConfig(c.governance, c.controller, c.oracle, c.operator, "", c.lastRewardUpdateTimestamp,
              c.allianceTokenDenom, c.allianceTokenSupply, c.rewardDenom, Percent(DefaultYearlyTakeRatePercent))
  }

  /** Saves every (key, value) of the old totals as (value, value), over what was stored. */
  function MoveTotals(target: map<AssetInfo, BalanceShares>, source: map<AssetInfo, Uint128>): (r: map<AssetInfo, BalanceShares>)
    ensures r.Keys == target.Keys + source.Keys
    ensures forall a :: a in source ==> r[a] == BalanceShares(source[a], source[a])
    ensures forall a :: a in target && a !in source ==> r[a] == target[a]
  {
    target + map a | a in source :: BalanceShares(source[a], source[a])
  }

  /** Saves every old balance as a share count of the same size, over what was stored. */
  function MoveBalances(target: map<Position, Uint128>, source: map<Position, Uint128>): (r: map<Position, Uint128>)
    ensures r.Keys == target.Keys + source.Keys
    ensures forall p :: p in source ==> r[p] == source[p]
    ensures forall p :: p in target && p !in source ==> r[p] == target[p]
  {
    target + source
  }

  function Migrate(s: Store): (r: Result<Store>)
    ensures s.config.Absent? ==> r == Err(NotFound)
    ensures s.config.NewLayout? ==> r == Err(ParseError)
    ensures r.Ok? <==> s.config.OldLayout?
    ensures r.Ok? ==>
              && r.value.config == NewLayout(Upgrade(s.config.previous))
              && r.value.totalBalances == map[] && r.value.balances == map[]
              && r.value.totalBalancesShares == MoveTotals(s.totalBalancesShares, s.totalBalances)
              && r.value.shares == MoveBalances(s.shares, s.balances)
  {
    match s.config
    case Absent => Err(NotFound)
    case NewLayout(_) => Err(ParseError)
    case OldLayout(c) =>
      Ok(Store(NewLayout(Upgrade(c)), map[], map[],
               MoveTotals(s.totalBalancesShares, s.totalBalances),
               MoveBalances(s.shares, s.balances)))
  }

  /** Σ balances == total per asset, in the layout before migration. */
  ghost predicate BalancesConserved(s: Store) {
    forall a :: Staked(s.balances, a) == TotalOf(s.totalBalances, a)
  }

  function TotalSharesOf(m: map<AssetInfo, BalanceShares>, a: AssetInfo): Uint128 {
    if a in m then m[a].shares else 0
  }

  /** Σ shares == total shares per asset, in the layout after migration. */
  ghost predicate SharesConserved(s: Store) {
    forall a :: Staked(s.shares, a) == TotalSharesOf(s.totalBalancesShares, a)
  }

  /** Migrating a store whose share layout is still empty carries the ledger invariant
      over: every asset's user shares add up to its total shares, which equal its source total
      balance, and each user's shares equal their source balance. */
  lemma MigratePreservesConservation(s: Store)
    requires s.config.OldLayout?
    requires s.totalBalancesShares == map[] && s.shares == map[]
    requires BalancesConserved(s)
    ensures SharesConserved(Migrate(s).value)
    ensures forall a :: TotalSharesOf(Migrate(s).value.totalBalancesShares, a) == TotalOf(s.totalBalances, a)
    ensures forall p :: BalanceOf(Migrate(s).value.shares, p) == BalanceOf(s.balances, p)
  {
    var s' := Migrate(s).value;
    assert s'.shares == s.balances;
    forall a
      ensures Staked(s'.shares, a) == TotalSharesOf(s'.totalBalancesShares, a)
    {
      assert TotalSharesOf(s'.totalBalancesShares, a) == TotalOf(s.totalBalances, a);
    }
  }

  /** Migration runs once: a second run finds the new config and aborts. */
  lemma MigrateOnce(s: Store)
    requires Migrate(s).Ok?
    ensures Migrate(Migrate(s).value) == Err(ParseError)
  {
  }
}

=== FILE: query.dfy ===
/** The read-only queries of contracts/alliance-hub/src/query.rs over the ledger state. */
module Query {
  import opened Errors
  import opened Uint
  import opened Decimal
  import opened Asset
  import opened State
  import L = Ledger

  datatype StakedBalanceRes = StakedBalanceRes(asset: AssetInfo, balance: Uint128)

  datatype PendingRewardsRes = PendingRewardsRes(rewards: Uint128, stakedAsset: AssetInfo, rewardAsset: AssetInfo)

  /** UNCLAIMED_REWARDS with a missing entry read as zero. */
  function UnclaimedOf(st: State, p: Position): Uint128 {
    if p in st.unclaimed then st.unclaimed[p] else 0
  }

  // ---------------------------------------------------------------------------
  // Single position.
  // ---------------------------------------------------------------------------

  /** The stored balance of one position; a position never written is NotFound, not zero. */
  function StakedBalance(st: State, user: Addr, asset: AssetInfo): (r: Result<StakedBalanceRes>)
    ensures r.Ok? <==> (user, asset) in st.balances
    ensures r.Err? ==> r.error == NotFound
    ensures r.Ok? ==> r.value == StakedBalanceRes(asset, BalanceOf(st.balances, (user, asset)))
  {
    if (user, asset) in st.balances then Ok(StakedBalanceRes(asset, st.balances[(user, asset)]))
    else Err(NotFound)
  }

  /** Unclaimed rewards plus (asset rate - checkpoint) * balance. The checkpoint, the asset
      rate and the balance must all be stored; the rate subtraction and the Decimal * Uint128
      product panic on underflow and overflow, and so does the final sum. */
  function PendingRewards(st: State, user: Addr, asset: AssetInfo): (r: Result<PendingRewardsRes>)
    ensures var p := (user, asset);
            (p !in st.userRates || asset !in st.assetRates || p !in st.balances) ==> r == Err(NotFound)
    ensures r.Ok? <==>
              var p := (user, asset);
              && p in st.userRates && asset in st.assetRates && p in st.balances
              && st.userRates[p].atomics <= st.assetRates[asset].atomics
              && UnclaimedOf(st, p) + L.Owed(st, p) <= MAX
    ensures r.Ok? ==>
              && r.value.rewards == UnclaimedOf(st, (user, asset)) + L.Owed(st, (user, asset))
              && r.value.stakedAsset == asset
              && r.value.rewardAsset == Native(st.config.rewardDenom)
  {
    var p := (user, asset);
    if p !in st.userRates || asset !in st.assetRates || p !in st.balances then Err(NotFound)
    else
      var unclaimed := UnclaimedOf(st, p);
      var diff :- Sub(st.assetRates[asset], st.userRates[p]);
      var pending :- MulInteger(diff, st.balances[p]);
      var rewards :- CheckedAdd(unclaimed, pending);
      Ok(PendingRewardsRes(rewards, asset, Native(st.config.rewardDenom)))
  }

  // ---------------------------------------------------------------------------
  // Listings, in ascending storage-key order.
  // ---------------------------------------------------------------------------

  /** The assets the user holds a reward checkpoint for. */
  function CheckpointedAssets(st: State, user: Addr): set<AssetInfo> {
    set p | p in st.userRates && p.0 == user :: p.1
  }

  /** The response `query` gives for every asset in turn; the first failing entry fails
      the whole listing with its error. */
  function PendingEach(query: AssetInfo -> Result<PendingRewardsRes>, assets: seq<AssetInfo>): (r: Result<seq<PendingRewardsRes>>)
    ensures r.Ok? <==> forall i :: 0 <= i < |assets| ==> query(assets[i]).Ok?
    ensures r.Ok? ==> |r.value| == |assets|
    ensures r.Ok? ==> forall i :: 0 <= i < |assets| ==> r.value[i] == query(assets[i]).value
    ensures r.Err? ==> exists i :: 0 <= i < |assets| && query(assets[i]) == Err(r.error)
                                   && forall j :: 0 <= j < i ==> query(assets[j]).Ok?
    decreases |assets|
  {
    if assets == [] then Ok([])
    else
      var head :- query(assets[0]);
      var tail := PendingEach(query, assets[1..]);
      if tail.Err? then
        var k :| 0 <= k < |assets[1..]| && query(assets[1..][k]) == Err(tail.error)
                 && forall j :: 0 <= j < k ==> query(assets[1..][j]).Ok?;
        assert query(assets[k + 1]) == Err(tail.error);
        assert forall j :: 0 <= j < k + 1 ==> query(assets[j]).Ok? by {
          forall j | 0 <= j < k + 1
            ensures query(assets[j]).Ok?
          {
            if j > 0 { assert assets[j] == assets[1..][j - 1]; }
          }
        }
        Err(tail.error)
      else
        assert forall i :: 1 <= i < |assets| ==> assets[i] == assets[1..][i - 1];
        Ok([head] + tail.value)
  }

  /** Listing a sorted key set succeeds exactly when every key's response does. */
  lemma PendingOfSortedOk(query: AssetInfo -> Result<PendingRewardsRes>, keys: set<AssetInfo>)
    ensures PendingEach(query, SortedAssets(keys)).Ok? <==> forall a :: a in keys ==> query(a).Ok?
  {
    var assets := SortedAssets(keys);
    if !(forall a :: a in keys ==> query(a).Ok?) {
      var a :| a in keys && query(a).Err?;
      var i :| 0 <= i < |assets| && assets[i] == a;
    }
  }

  /** Responses that follow a sorted key set entry by entry name each key once, ascending. */
  lemma FollowsSorted(r: seq<PendingRewardsRes>, keys: set<AssetInfo>)
    requires |r| == |SortedAssets(keys)|
    requires forall i :: 0 <= i < |r| ==> r[i].stakedAsset == SortedAssets(keys)[i]
    ensures |r| == |keys|
    ensures forall i :: 0 <= i < |r| ==> r[i].stakedAsset in keys
    ensures forall a :: a in keys ==> exists i :: 0 <= i < |r| && r[i].stakedAsset == a
    ensures forall i, j :: 0 <= i < j < |r| ==> Below(Encode(r[i].stakedAsset), Encode(r[j].stakedAsset))
  {
    var assets := SortedAssets(keys);
    forall a | a in keys
      ensures exists i :: 0 <= i < |r| && r[i].stakedAsset == a
    {
      var i :| 0 <= i < |assets| && assets[i] == a;
      assert r[i].stakedAsset == a;
    }
  }

  /** A successful listing of a sorted key set names each key once, ascending, with its
      own response. */
  lemma PendingOfSorted(query: AssetInfo -> Result<PendingRewardsRes>, keys: set<AssetInfo>)
    requires forall a :: query(a).Ok? ==> query(a).value.stakedAsset == a
    requires PendingEach(query, SortedAssets(keys)).Ok?
    ensures var r := PendingEach(query, SortedAssets(keys)).value;
            && |r| == |keys|
            && (forall i :: 0 <= i < |r| ==> r[i].stakedAsset in keys && r[i] == query(r[i].stakedAsset).value)
            && (forall a :: a in keys ==> exists i :: 0 <= i < |r| && r[i].stakedAsset == a)
            && (forall i, j :: 0 <= i < j < |r| ==> Below(Encode(r[i].stakedAsset), Encode(r[j].stakedAsset)))
  {
    var assets := SortedAssets(keys);
    var r := PendingEach(query, assets).value;
    forall i | 0 <= i < |r|
      ensures r[i].stakedAsset == assets[i] && r[i] == query(r[i].stakedAsset).value
    {
      assert r[i] == query(assets[i]).value;
    }
    FollowsSorted(r, keys);
  }

  /** Pending rewards of every asset the user has a checkpoint for. */
  function AllPendingRewards(st: State, user: Addr): (r: Result<seq<PendingRewardsRes>>)
    ensures r.Ok? <==> forall a :: a in CheckpointedAssets(st, user) ==> PendingRewards(st, user, a).Ok?
    ensures r.Ok? ==> |r.value| == |CheckpointedAssets(st, user)|
    ensures r.Ok? ==> forall i :: 0 <= i < |r.value| ==>
                        && r.value[i].stakedAsset in CheckpointedAssets(st, user)
                        && r.value[i] == PendingRewards(st, user, r.value[i].stakedAsset).value
    ensures r.Ok? ==> forall a :: a in CheckpointedAssets(st, user) ==>
                        exists i :: 0 <= i < |r.value| && r.value[i].stakedAsset == a
    ensures r.Ok? ==> forall i, j :: 0 <= i < j < |r.value| ==>
                        Below(Encode(r.value[i].stakedAsset), Encode(r.value[j].stakedAsset))
  {
    var query := a => PendingRewards(st, user, a);
    PendingOfSortedOk(query, CheckpointedAssets(st, user));
    var r := PendingEach(query, SortedAssets(CheckpointedAssets(st, user)));
    if r.Ok? then PendingOfSorted(query, CheckpointedAssets(st, user)); r else r
  }

  /** One response entry per asset, in the given order, reading each balance with `read`. */
  function Listing(assets: seq<AssetInfo>, read: AssetInfo -> Uint128): (r: seq<StakedBalanceRes>)
    ensures |r| == |assets|
    ensures forall i :: 0 <= i < |r| ==> r[i] == StakedBalanceRes(assets[i], read(assets[i]))
    decreases |assets|
  {
    if assets == [] then [] else [StakedBalanceRes(assets[0], read(assets[0]))] + Listing(assets[1..], read)
  }

  /** A listing of a sorted key set names each key once, in ascending order. */
  lemma ListingOfSorted(keys: set<AssetInfo>, read: AssetInfo -> Uint128)
    ensures var r := Listing(SortedAssets(keys), read);
            && |r| == |keys|
            && (forall i :: 0 <= i < |r| ==> r[i].asset in keys && r[i].balance == read(r[i].asset))
            && (forall a :: a in keys ==> exists i :: 0 <= i < |r| && r[i].asset == a)
            && (forall i, j :: 0 <= i < j < |r| ==> Below(Encode(r[i].asset), Encode(r[j].asset)))
  {
    var assets := SortedAssets(keys);
    var r := Listing(assets, read);
    forall a | a in keys
      ensures exists i :: 0 <= i < |r| && r[i].asset == a
    {
      var i :| 0 <= i < |assets| && assets[i] == a;
      assert r[i].asset == a;
    }
    forall i, j | 0 <= i < j < |r|
      ensures Below(Encode(r[i].asset), Encode(r[j].asset))
    {
      assert r[i].asset == assets[i] && r[j].asset == assets[j];
    }
  }

  /** The user's balance of every whitelisted asset, zero where never staked. */
  function AllStakedBalances(st: State, user: Addr): (r: seq<StakedBalanceRes>)
    ensures |r| == |st.whitelist|
    ensures forall i :: 0 <= i < |r| ==> r[i].asset in st.whitelist
    ensures forall a :: a in st.whitelist ==> exists i :: 0 <= i < |r| && r[i].asset == a
    ensures forall i, j :: 0 <= i < j < |r| ==> Below(Encode(r[i].asset), Encode(r[j].asset))
    ensures forall i :: 0 <= i < |r| ==>
              var single := StakedBalance(st, user, r[i].asset);
              && (single.Ok? ==> r[i] == single.value)
              && (single.Err? ==> r[i].balance == 0)
  {
    var read := a => BalanceOf(st.balances, (user, a));
    ListingOfSorted(st.whitelist.Keys, read);
    Listing(SortedAssets(st.whitelist.Keys), read)
  }

  /** The stored total of every asset ever staked. */
  function TotalStakedBalances(st: State): (r: seq<StakedBalanceRes>)
    ensures |r| == |st.totals|
    ensures forall i :: 0 <= i < |r| ==> r[i].asset in st.totals && r[i].balance == st.totals[r[i].asset]
    ensures forall a :: a in st.totals ==> exists i :: 0 <= i < |r| && r[i].asset == a
    ensures forall i, j :: 0 <= i < j < |r| ==> Below(Encode(r[i].asset), Encode(r[j].asset))
  {
    var read := a => TotalOf(st.totals, a);
    ListingOfSorted(st.totals.Keys, read);
    Listing(SortedAssets(st.totals.Keys), read)
  }

  // ---------------------------------------------------------------------------
  // Whitelist grouped by chain.
  // ---------------------------------------------------------------------------

  /** The assets of `assets` whitelisted for `chain`, in their original order. */
  function OnChain(wl: map<AssetInfo, ChainId>, assets: seq<AssetInfo>, chain: ChainId): seq<AssetInfo>
    decreases |assets|
  {
    if assets == [] then []
    else
      var last := assets[|assets| - 1];
      OnChain(wl, assets[..|assets| - 1], chain) + (if last in wl && wl[last] == chain then [last] else [])
  }

  /** Pushes every whitelisted asset, in turn, onto its chain's list: a chain has a list
      exactly when some asset is on it, and that list is the chain's assets in input order. */
  function Group(wl: map<AssetInfo, ChainId>, assets: seq<AssetInfo>): (r: map<ChainId, seq<AssetInfo>>)
    ensures forall c :: c in r <==> OnChain(wl, assets, c) != []
    ensures forall c :: c in r ==> r[c] == OnChain(wl, assets, c)
    decreases |assets|
  {
    if assets == [] then map[]
    else
      var init, last := assets[..|assets| - 1], assets[|assets| - 1];
      var g := Group(wl, init);
      if last !in wl then g
      else
        var chain := wl[last];
        g[chain := (if chain in g then g[chain] else []) + [last]]
  }

  lemma {:induction false} OnChainMembers(wl: map<AssetInfo, ChainId>, assets: seq<AssetInfo>, chain: ChainId, x: AssetInfo)
    ensures x in OnChain(wl, assets, chain) <==> x in assets && x in wl && wl[x] == chain
    decreases |assets|
  {
    if assets != [] {
      var init, last := assets[..|assets| - 1], assets[|assets| - 1];
      assert assets == init + [last];
      OnChainMembers(wl, init, chain, x);
    }
  }

  lemma {:induction false} OnChainAscending(wl: map<AssetInfo, ChainId>, assets: seq<AssetInfo>, chain: ChainId)
    requires Ascending(assets, Encode)
    ensures Ascending(OnChain(wl, assets, chain), Encode)
    decreases |assets|
  {
    if assets != [] {
      var init, last := assets[..|assets| - 1], assets[|assets| - 1];
      assert Ascending(init, Encode);
      OnChainAscending(wl, init, chain);
      var front := OnChain(wl, init, chain);
      if last in wl && wl[last] == chain {
        forall i | 0 <= i < |front|
          ensures Below(Encode(front[i]), Encode(last))
        {
          OnChainMembers(wl, init, chain, front[i]);
          var k :| 0 <= k < |init| && init[k] == front[i];
          assert assets[k] == init[k];
        }
        var r := front + [last];
        forall i, j | 0 <= i < j < |r|
          ensures Below(Encode(r[i]), Encode(r[j]))
        {
          if j == |front| { assert r[i] == front[i]; }
        }
      }
    }
  }

  /** Over a listing of every whitelisted asset, a chain has assets exactly when it is in use. */
  lemma OnChainInUse(wl: map<AssetInfo, ChainId>, assets: seq<AssetInfo>, c: ChainId)
    requires forall a :: a in wl ==> a in assets
    ensures OnChain(wl, assets, c) != [] <==> c in wl.Values
  {
    if OnChain(wl, assets, c) != [] {
      OnChainMembers(wl, assets, c, OnChain(wl, assets, c)[0]);
    }
    if c in wl.Values {
      var a :| a in wl && wl[a] == c;
      OnChainMembers(wl, assets, c, a);
    }
  }

  /** Grouping a listing of every whitelisted asset gives lists for exactly the chains in use. */
  lemma GroupKeysInUse(wl: map<AssetInfo, ChainId>, assets: seq<AssetInfo>)
    requires forall a :: a in wl ==> a in assets
    ensures Group(wl, assets).Keys == wl.Values
  {
    forall c
      ensures c in Group(wl, assets) <==> c in wl.Values
    {
      OnChainInUse(wl, assets, c);
    }
  }

  /** The chains the grouping of the sorted whitelist has lists for are the chains in use. */
  lemma GroupSortedKeys(wl: map<AssetInfo, ChainId>)
    ensures Group(wl, SortedAssets(wl.Keys)).Keys == wl.Values
  {
    GroupKeysInUse(wl, SortedAssets(wl.Keys));
  }

  /** Each chain's list holds exactly the assets whitelisted for it, in ascending order. */
  lemma GroupSortedLists(wl: map<AssetInfo, ChainId>, c: ChainId)
    requires c in wl.Values
    ensures var l := OnChain(wl, SortedAssets(wl.Keys), c);
            && l != []
            && (forall a :: a in l <==> a in wl && wl[a] == c)
            && Ascending(l, Encode)
  {
    var assets := SortedAssets(wl.Keys);
    OnChainInUse(wl, assets, c);
    forall a
      ensures a in OnChain(wl, assets, c) <==> a in wl && wl[a] == c
    {
      OnChainMembers(wl, assets, c, a);
    }
    OnChainAscending(wl, assets, c);
  }

  /** The whitelist grouped by chain: every chain in use maps to exactly its own assets,
      in ascending storage-key order and each once. */
  function WhitelistedAssets(st: State): (r: map<ChainId, seq<AssetInfo>>)
    ensures r.Keys == st.whitelist.Values
    ensures forall c :: c in r ==> forall a :: a in r[c] <==> a in st.whitelist && st.whitelist[a] == c
    ensures forall c :: c in r ==> Ascending(r[c], Encode)
    ensures forall c :: c in r ==> forall i, j :: 0 <= i < |r[c]| && 0 <= j < |r[c]| && i != j ==> r[c][i] != r[c][j]
  {
    var r := Group(st.whitelist, SortedAssets(st.whitelist.Keys));
    GroupSortedKeys(st.whitelist);
    forall c | c in r
      ensures (forall a :: a in r[c] <==> a in st.whitelist && st.whitelist[a] == c)
      ensures Ascending(r[c], Encode)
      ensures forall i, j :: 0 <= i < |r[c]| && 0 <= j < |r[c]| && i != j ==> r[c][i] != r[c][j]
    {
      GroupSortedLists(st.whitelist, c);
      forall i, j | 0 <= i < |r[c]| && 0 <= j < |r[c]| && i != j
        ensures r[c][i] != r[c][j]
      {
        AscendingDistinct(r[c], Encode, i, j);
      }
    }
    r
  }

  // ---------------------------------------------------------------------------
  // Queries against the ledger.
  // ---------------------------------------------------------------------------

  /** With nothing in UNCLAIMED_REWARDS, the pending-reward query reports exactly what a
      claim would pay, and fails exactly when the claim fails. */
  lemma PendingMatchesClaim(st: State, user: Addr, asset: AssetInfo)
    requires UnclaimedOf(st, (user, asset)) == 0
    ensures PendingRewards(st, user, asset).Ok? <==> L.ClaimReward(st, user, asset).Ok?
    ensures PendingRewards(st, user, asset).Ok? ==>
              PendingRewards(st, user, asset).value.rewards == L.ClaimReward(st, user, asset).value.amount
    ensures L.ClaimRewardAsWritten(st, user, asset).Ok? ==>
              && PendingRewards(st, user, asset).Ok?
              && PendingRewards(st, user, asset).value.rewards == L.ClaimRewardAsWritten(st, user, asset).value.amount
  {
    if L.ClaimRewardAsWritten(st, user, asset).Ok? {
      L.ClaimAsWrittenAgrees(st, user, asset);
    }
  }

  /** Right after a successful claim, the query reports only what UNCLAIMED_REWARDS holds. */
  lemma PendingAfterClaim(st: State, user: Addr, asset: AssetInfo)
    requires L.ClaimReward(st, user, asset).Ok?
    ensures var st' := L.ClaimReward(st, user, asset).value.state;
            PendingRewards(st', user, asset) == Ok(PendingRewardsRes(UnclaimedOf(st, (user, asset)), asset, Native(st.config.rewardDenom)))
  {
    var c := L.ClaimReward(st, user, asset).value;
    var p := (user, asset);
    var rate := st.assetRates[asset];
    if c.amount > 0 {
      assert c.state == st.(userRates := st.userRates[p := rate]);
      assert Sub(rate, rate) == Ok(Zero);
      assert MulInteger(Zero, c.state.balances[p]) == Ok(0);
    } else {
      assert c.state == st;
      assert L.Owed(st, p) == 0;
    }
  }

  /** Under the ledger invariant every reported total is the sum of the users' balances. */
  lemma TotalsAreSums(st: State)
    requires Conserved(st)
    ensures forall e :: e in TotalStakedBalances(st) ==> e.balance == Staked(st.balances, e.asset)
  {
    forall e | e in TotalStakedBalances(st)
      ensures e.balance == Staked(st.balances, e.asset)
    {
      assert TotalOf(st.totals, e.asset) == st.totals[e.asset];
    }
  }
}

=== FILE: scenario.dfy ===
/** A worked harvest: two stakers of one asset, a harvest of 100,000 reward units, and the
    pending rewards the query then reports. */
module Scenario {
  import opened Errors
  import opened Decimal
  import opened Asset
  import opened State
  import L = Ledger
  import H = Harvest
  import Q = Query

  /** U stakes 1,000,000 and V 500,000 of X, which receives all emissions. A harvest of
      100,000 adds floor(10^18 * 100,000 / 1,500,000) atomics to X's rate, so the query
      reports floor(66,666.66…) = 66,666 for U and 33,333 for V. */
  lemma TwoStakersShareHarvest()
    ensures
      var x := Native("uatom");
      var st0 := State(Config("gov", "ctrl", "ualliance", 0, 0, "uluna"), map[x := "chain-1"],
                       map[], map[], {}, Some([AssetDistribution(x, Decimal(FRACTIONAL))]),
                       map[], map[], map[], None);
      var st1 := L.Stake(st0, MessageInfo("u", [Coin("uatom", 1_000_000)])).value.state;
      var st2 := L.Stake(st1, MessageInfo("v", [Coin("uatom", 500_000)])).value.state;
      var st3 := H.UpdateRewards(st2, Env("hub", 0), MessageInfo("ctrl", [])).value.state;
      var r := H.UpdateRewardCallback(st3, Env("hub", 100_000), MessageInfo("hub", []));
      && r.Ok?
      && r.value.state.assetRates == map[x := Decimal(66_666_666_666_666_666)]
      && Q.PendingRewards(r.value.state, "u", x) == Ok(Q.PendingRewardsRes(66_666, x, Native("uluna")))
      && Q.PendingRewards(r.value.state, "v", x) == Ok(Q.PendingRewardsRes(33_333, x, Native("uluna")))
  {
    var x := Native("uatom");
    var st0 := State(Config("gov", "ctrl", "ualliance", 0, 0, "uluna"), map[x := "chain-1"],
                     map[], map[], {}, Some([AssetDistribution(x, Decimal(FRACTIONAL))]),
                     map[], map[], map[], None);
    var st1 := L.Stake(st0, MessageInfo("u", [Coin("uatom", 1_000_000)])).value.state;
    assert st1.totals == map[x := 1_000_000];
    var st2 := L.Stake(st1, MessageInfo("v", [Coin("uatom", 500_000)])).value.state;
    assert st2.totals == map[x := 1_500_000];
    assert st2.balances == map[("u", x) := 1_000_000, ("v", x) := 500_000];
    assert st2.userRates == map[("u", x) := Zero, ("v", x) := Zero];
    var st3 := H.UpdateRewards(st2, Env("hub", 0), MessageInfo("ctrl", [])).value.state;
    assert st3 == st2.(snapshot := Some(0));
    var d := AssetDistribution(x, Decimal(FRACTIONAL));
    assert H.WeightFold(Zero, [d]) == Ok(Decimal(FRACTIONAL));
    assert H.RatePerUnit(100_000, Decimal(FRACTIONAL), Decimal(FRACTIONAL), 1_500_000)
        == Ok(Decimal(66_666_666_666_666_666));
    var rates := map[x := Decimal(66_666_666_666_666_666)];
    assert H.FanOutOne(map[], st3.totals, d, 100_000, Decimal(FRACTIONAL), Corrected) == Ok(rates);
    assert H.FanOut(map[], st3.totals, [d], 100_000, Decimal(FRACTIONAL), Corrected) == Ok(rates);
    var st4 := H.UpdateRewardCallback(st3, Env("hub", 100_000), MessageInfo("hub", [])).value.state;
    assert st4 == st3.(assetRates := rates, snapshot := None);
    assert L.Owed(st4, ("u", x)) == 66_666;
    assert L.Owed(st4, ("v", x)) == 33_333;
  }
}

=== FILE: state.dfy ===
/** The hub contract's storage (contracts/alliance-hub/src/state.rs) as one immutable
    record, the outbound commands a call can emit, and the ledger invariants. */
module State {
  import opened Errors
  import opened Uint
  import opened Decimal
  import opened Asset

  type Addr = string
  type ChainId = string

  /** A (user, asset) storage key of BALANCES and USER_ASSET_REWARD_RATE. */
  type Position = (Addr, AssetInfo)

  datatype Config = Config(
    governance: Addr,
    controller: Addr,
    allianceTokenDenom: string,
    allianceTokenSupply: Uint128,
    lastRewardUpdateTimestamp: nat,
    rewardDenom: string)

  /** One entry of ASSET_REWARD_DISTRIBUTION: the weight an asset gets of each harvest. */
  datatype AssetDistribution = AssetDistribution(asset: AssetInfo, distribution: Decimal)

  datatype State = State(
    config: Config,
    whitelist: map<AssetInfo, ChainId>,
    balances: map<Position, Uint128>,
    totals: map<AssetInfo, Uint128>,
    validators: set<Addr>,
    /** ASSET_REWARD_DISTRIBUTION; None while the item has never been stored. */
    distribution: Option<seq<AssetDistribution>>,
    assetRates: map<AssetInfo, Decimal>,
    userRates: map<Position, Decimal>,
    /** UNCLAIMED_REWARDS: read by the queries, written by no operation. */
    unclaimed: map<Position, Uint128>,
    /** TEMP_BALANCE: the reward balance snapshot between a harvest request and its callback. */
    snapshot: Option<Uint128>)

  datatype Coin = Coin(denom: string, amount: Uint128)

  /** The host environment of one call: the contract's own address and the reward-denom
      balance the bank querier reports for it. */
  datatype Env = Env(contract: Addr, rewardBalance: Uint128)

  datatype MessageInfo = MessageInfo(sender: Addr, funds: seq<Coin>)

  /** The outbound messages a call dispatches, abstracted from their wire encoding. */
  datatype Command =
    | Transfer(recipient: Addr, asset: AssetInfo, amount: Uint128)
    | Delegate(denom: string, validator: Addr, amount: Uint128)
    | Undelegate(denom: string, validator: Addr, amount: Uint128)
    | Redelegate(denom: string, src: Addr, dst: Addr, amount: Uint128)
    | ClaimDelegationRewards(denom: string, validator: Addr)
    | UpdateRewardsCallback(contract: Addr)
    | CreateDenom(subdenom: string)
    | MintTokens(denom: string, amount: Uint128, mintTo: Addr)

  /** A successful call: the state it commits and the messages it dispatches, in order. */
  datatype Step = Step(state: State, msgs: seq<Command>)

  /** Which reading of the three `Decimal::from_atomics(_, 0)` conversions the reward code
      uses: as written, a staked balance, a harvest or a total above MAX / 10^18 makes the
      conversion fail; corrected, the integer enters the arithmetic directly. */
  datatype Arithmetic = AsWritten | Corrected

  function BalanceOf(m: map<Position, Uint128>, p: Position): Uint128 {
    if p in m then m[p] else 0
  }

  function TotalOf(m: map<AssetInfo, Uint128>, a: AssetInfo): Uint128 {
    if a in m then m[a] else 0
  }

  /** An asset's reward rate, zero when never stored (the `unwrap_or(Decimal::zero())`). */
  function RateOf(m: map<AssetInfo, Decimal>, a: AssetInfo): Decimal {
    if a in m then m[a] else Zero
  }

  // ---------------------------------------------------------------------------
  // Sum of the user balances of one asset.
  // ---------------------------------------------------------------------------

  ghost function SumOver(m: map<Position, Uint128>, ks: set<Position>): nat
    requires ks <= m.Keys
    decreases ks
  {
    if ks == {} then 0
    else
      var k :| k in ks;
      m[k] + SumOver(m, ks - {k})
  }

  ghost function PositionsOf(m: map<Position, Uint128>, a: AssetInfo): set<Position> {
    set p | p in m && p.1 == a
  }

  /** Σ over users of their balance of asset a. */
  ghost function Staked(m: map<Position, Uint128>, a: AssetInfo): nat {
    SumOver(m, PositionsOf(m, a))
  }

  /** Any element can be split off a sum, whichever one the definition picked. */
  lemma {:induction false} SumOverRemove(m: map<Position, Uint128>, ks: set<Position>, k: Position)
    requires k in ks && ks <= m.Keys
    ensures SumOver(m, ks) == m[k] + SumOver(m, ks - {k})
    decreases ks
  {
    var j :| j in ks && SumOver(m, ks) == m[j] + SumOver(m, ks - {j});
    if j != k {
      SumOverRemove(m, ks - {j}, k);
      SumOverRemove(m, ks - {k}, j);
      assert ks - {j} - {k} == ks - {k} - {j};
    }
  }

  /** A sum only depends on the entries it ranges over. */
  lemma {:induction false} SumOverFrame(m: map<Position, Uint128>, m': map<Position, Uint128>, ks: set<Position>)
    requires ks <= m.Keys && ks <= m'.Keys
    requires forall k :: k in ks ==> m[k] == m'[k]
    ensures SumOver(m, ks) == SumOver(m', ks)
    decreases ks
  {
    if ks != {} {
      var k :| k in ks && SumOver(m, ks) == m[k] + SumOver(m, ks - {k});
      SumOverFrame(m, m', ks - {k});
      SumOverRemove(m', ks, k);
    }
  }

  /** Setting one position's balance to v moves its asset's sum by v minus the old
      balance and leaves every other asset's sum alone. */
  lemma StakedUpdate(m: map<Position, Uint128>, p: Position, v: Uint128)
    ensures Staked(m[p := v], p.1) + BalanceOf(m, p) == Staked(m, p.1) + v
    ensures forall a :: a != p.1 ==> Staked(m[p := v], a) == Staked(m, a)
  {
    var m' := m[p := v];
    var K, K' := PositionsOf(m, p.1), PositionsOf(m', p.1);
    assert K' == K + {p};
    SumOverRemove(m', K', p);
    SumOverFrame(m, m', K - {p});
    assert K' - {p} == K - {p};
    if p in m {
      SumOverRemove(m, K, p);
    } else {
      assert K - {p} == K;
    }
    forall a | a != p.1
      ensures Staked(m', a) == Staked(m, a)
    {
      assert PositionsOf(m', a) == PositionsOf(m, a);
      SumOverFrame(m, m', PositionsOf(m, a));
    }
  }

  /** No single balance exceeds the sum of its asset. */
  lemma BalanceBelowStaked(m: map<Position, Uint128>, p: Position)
    ensures BalanceOf(m, p) <= Staked(m, p.1)
  {
    if p in m {
      SumOverRemove(m, PositionsOf(m, p.1), p);
    }
  }

  // ---------------------------------------------------------------------------
  // Invariants.
  // ---------------------------------------------------------------------------

  /** For every asset, Σ over users of the balance equals the asset's total balance. */
  ghost predicate Conserved(st: State) {
    forall a :: Staked(st.balances, a) == TotalOf(st.totals, a)
  }

  /** No user checkpoint is above its asset's current rate, so the subtraction
      `asset_reward_rate - user_reward_rate` of a claim never underflows. */
  ghost predicate CheckpointsBounded(st: State) {
    forall p :: p in st.userRates ==> st.userRates[p].atomics <= RateOf(st.assetRates, p.1).atomics
  }

  ghost predicate Invariant(st: State) {
    Conserved(st) && CheckpointsBounded(st)
  }

  /** Every asset rate stays stored and none decreases. */
  ghost predicate RatesGrow(rates: map<AssetInfo, Decimal>, rates': map<AssetInfo, Decimal>) {
    && rates.Keys <= rates'.Keys
    && forall a :: a in rates ==> rates[a].atomics <= rates'[a].atomics
  }

  lemma RatesGrowTransitive(r1: map<AssetInfo, Decimal>, r2: map<AssetInfo, Decimal>, r3: map<AssetInfo, Decimal>)
    requires RatesGrow(r1, r2) && RatesGrow(r2, r3)
    ensures RatesGrow(r1, r3)
  {
  }

  lemma RatesGrowRateOf(rates: map<AssetInfo, Decimal>, rates': map<AssetInfo, Decimal>, a: AssetInfo)
    requires RatesGrow(rates, rates')
    ensures RateOf(rates, a).atomics <= RateOf(rates', a).atomics
  {
  }
}

=== FILE: uint.dfy ===
/** cosmwasm's Uint128: naturals below 2^128 whose arithmetic panics instead of wrapping. */
module Uint {
  import opened Errors

  const MAX: nat := 340282366920938463463374607431768211455

  type Uint128 = x: nat | x <= MAX

  /** `a + b`, panicking with "attempt to add with overflow". */
  function CheckedAdd(a: Uint128, b: Uint128): (r: Result<Uint128>)
    ensures r.Ok? <==> a + b <= MAX
    ensures r.Ok? ==> r.value == a + b
    ensures r.Err? ==> r.error == Overflow(Addition)
  {
    if a + b <= MAX then Ok(a + b) else Err(Overflow(Addition))
  }

  /** `a - b`, panicking with "attempt to subtract with overflow". */
  function CheckedSub(a: Uint128, b: Uint128): (r: Result<Uint128>)
    ensures r.Ok? <==> b <= a
    ensures r.Ok? ==> r.value + b == a
    ensures r.Err? ==> r.error == Overflow(Subtraction)
  {
    if b <= a then Ok(a - b) else Err(Overflow(Subtraction))
  }

  /** `a.multiply_ratio(num, den)`: floor(a * num / den) computed without intermediate
      overflow; panics when the denominator is zero or the quotient exceeds MAX. */
  function MultiplyRatio(a: Uint128, num: Uint128, den: Uint128): (r: Result<Uint128>)
    ensures den == 0 ==> r == Err(DivideByZero)
    ensures den > 0 ==> (r.Ok? <==> a * num / den <= MAX)
    ensures r.Ok? ==> r.value * den <= a * num < (r.value + 1) * den
  {
    if den == 0 then Err(DivideByZero)
    else if a * num / den <= MAX then
      DivBounds(a * num, den);
      Ok(a * num / den)
    else Err(Overflow(Multiplication))
  }

  // ---------------------------------------------------------------------------
  // Floor-division facts used by the fixed-point proofs.
  // ---------------------------------------------------------------------------

  lemma DivBounds(x: nat, d: nat)
    requires d > 0
    ensures (x / d) * d <= x < (x / d + 1) * d
  {
  }

  /** Floor division is determined by its quotient/remainder decomposition. */
  lemma DivUnique(x: nat, d: nat, q: nat, r: nat)
    requires d > 0 && x == q * d + r && r < d
    ensures x / d == q
  {
    DivBounds(x, d);
    var q' := x / d;
    if q' < q {
      assert (q' + 1) * d <= q * d by { MulLeMono(q' + 1, q, d); }
    } else if q' > q {
      assert (q + 1) * d <= q' * d by { MulLeMono(q + 1, q', d); }
    }
  }

  lemma MulLeMono(a: nat, b: nat, d: nat)
    requires a <= b
    ensures a * d <= b * d
  {
  }

  lemma MulDivCancel(n: nat, d: nat)
    requires d > 0
    ensures (n * d) / d == n
  {
    DivUnique(n * d, d, n, 0);
  }

  /** Dividing twice floors once: floor(floor(x / a) / b) == floor(x / (a * b)). */
  lemma DivDiv(x: nat, a: nat, b: nat)
    requires a > 0 && b > 0
    ensures (x / a) / b == x / (a * b)
  {
    var q1, r1 := x / a, x % a;
    var q2, r2 := q1 / b, q1 % b;
    assert x == q1 * a + r1;
    assert q1 == q2 * b + r2;
    NestedRemainder(q2, r2, r1, a, b);
    DivUnique(x, a * b, q2, r2 * a + r1);
  }

  /** The remainders of two nested divisions combine into one remainder below a * b. */
  lemma NestedRemainder(q2: nat, r2: nat, r1: nat, a: nat, b: nat)
    requires r2 < b && r1 < a
    ensures (q2 * b + r2) * a + r1 == q2 * (a * b) + (r2 * a + r1)
    ensures r2 * a + r1 < a * b
  {
    Distribute(q2 * b, r2, a);
    assert (q2 * b) * a == q2 * (a * b);
    MulLeMono(r2, b - 1, a);
    Distribute(b - 1, 1, a);
  }

  lemma Distribute(p: nat, q: nat, a: nat)
    ensures (p + q) * a == p * a + q * a
  {
  }

  /** Scaling numerator and denominator by the same factor leaves the floor unchanged. */
  lemma DivScale(x: nat, d: nat, k: nat)
    requires d > 0 && k > 0
    ensures (x * k) / (d * k) == x / d
  {
    DivDiv(x * k, k, d);
    MulDivCancel(x, k);
    assert k * d == d * k;
  }

  lemma DivLeNumerator(x: nat, d: nat)
    requires d > 0
    ensures x / d <= x
  {
    var q := x / d;
    DivBounds(x, d);
    MulLeMono(1, d, q);
    assert q == 1 * q <= d * q == q * d;
  }

  /** A quotient stays within any bound m that the numerator respects scaled by the divisor. */
  lemma DivAtMost(x: nat, d: nat, m: nat)
    requires d > 0 && x <= m * d
    ensures x / d <= m
  {
    DivBounds(x, d);
    if x / d > m {
      MulLeMono(m + 1, x / d, d);
      assert false;
    }
  }
}
